=== FILE: README.md ===
# Zebra puzzle solver — a Dafny model

This project models the core of a zebra-puzzle (Einstein-riddle) solver. A
puzzle has `n` positions (the houses) and a list of categories (colour,
nationality, drink, ...). Each category lists exactly `n` value labels. The
clues are built from nine clue shapes. The solver:

- starts with every value possible at every position;
- narrows those domains by propagation: singleton elimination and
  "only one place left" pinning, repeated to a fixpoint;
- runs a backtracking search that always branches on the open
  (category, position) with the fewest remaining values (the MRV choice);
- checks every clue against each partial assignment; a clue only fails once
  the values it talks about are committed (open-world evaluation);
- can answer "where is value v, and what else sits at that position" on a
  solution.

The model has four modules:

- `Common` holds the shared vocabulary: `Option`, `Result` with one `Error`
  constructor per raise site, rows and assignments, and counting facts about
  finite sets.
- `Clues` holds the nine clue factories as the `Clue` datatype, their
  evaluator `Eval`, and the `middle_position` factory check.
- `Propagation` holds the domains, the propagation pass and its fixpoint,
  and committing a value into the domains.
- `Solver` holds the puzzle, the MRV choice, the backtracking search,
  `Solve`, and the solution query.

Categories are identified by their declaration index, and values are
strings. An assignment is a map from category index to a row, and a row is a
map from position to value.

Main results:

- `Solver.Solve` returns only real solutions: complete, injective rows drawn
  from each category's list, satisfying every clue.
- `Solver.SolveComplete` proves it never reports "no solution" when a
  solution exists.
- Propagation terminates, reaches a settled state, is idempotent, and never
  removes a value that some solution uses at that position.
- The only way the search can get stuck is a puzzle with zero positions;
  there the Python solver raises while unpacking a missing MRV choice.

## Model

| member | source | states |
|---|---|---|
| Solver.NewPuzzle | zebra_solver.py:24-42 | construction succeeds exactly when every category lists `n` values; it fails with a length-mismatch error naming the first offending category, its length and the expected length |
| Solver.AddClue | zebra_solver.py:44-55 | a clue is appended at the end; the earlier clues, the positions and the categories are unchanged |
| Solver.AddClueChecked | zebra_solver.py:44-55 | after a clue is added, an assignment is consistent exactly when it was consistent before and the new clue also holds on it |
| Solver.CheckAll | zebra_solver.py:158-163 | the assignment is consistent iff every clue evaluates to true; otherwise the outcome is that of the first clue that does not |
| Solver.CheckAllErrors | zebra_solver.py:158-163 | the only error a consistency check can raise is the invalid-edge error of at_edge |
| Solver.CheckAllMonotone | zebra_solver.py:158-163 | a consistent assignment with injective rows makes every part of it consistent, so checking partial assignments never prunes a solution |
| Solver.IsComplete | zebra_solver.py:122-129 | the completeness test: every declared category has a row holding exactly `n` entries |
| Solver.CompleteIffClosed | zebra_solver.py:122-129 | for an assignment whose positions lie below `n`, the completeness test holds exactly when every category has a row and no (category, position) pair is left open |
| Solver.ClosedComplete | zebra_solver.py:122-129 | with at least one position, an assignment that leaves no pair open is complete in the sense of the completeness test |
| Solver.Assign | zebra_solver.py:103-106 | assigning a value places it at the position, adds a row only for its own category, adds exactly that one pair to the assigned ones, and keeps every other committed entry |
| Solver.AssignShrinks | zebra_solver.py:103-106 | assigning an open pair strictly shrinks the set of open pairs, which bounds the search depth |
| Solver.Scan | zebra_solver.py:142-154 | the scan from a given point, carrying the best pair so far, ends with no pair exactly when none is open; otherwise it ends with an open pair of fewest remaining values, and ties go to the earliest category and then the earliest position |
| Solver.Select | zebra_solver.py:131-156 | the MRV choice: no pair exactly when none is open; otherwise an open pair whose domain is no larger than any other open pair's, and earliest in category-then-position order among those |
| Solver.Candidates | zebra_solver.py:101 | the values tried are exactly the category's values that are still in the domain, each once |
| Solver.CandidatesInOrder | zebra_solver.py:101 | when the category's values are distinct and all still possible, the values are tried in the order the category lists them |
| Solver.Backtrack | zebra_solver.py:78-120 | a solution returned by the search is complete and keeps every entry of the assignment it started from |
| Solver.TryValues | zebra_solver.py:101-120 | a solution returned while trying the candidate values is complete and keeps the starting assignment |
| Solver.Solve | zebra_solver.py:57-76 | every solution returned is a solution of the puzzle: each declared category has a row over positions `0..n-1` with distinct values from its list, and every clue holds |
| Solver.BacktrackSound | zebra_solver.py:78-120 | from any state satisfying the search invariant, a returned solution is a real solution, and the search is stuck only when there are no positions |
| Solver.TryValuesSound | zebra_solver.py:101-120 | the same soundness for the loop over candidate values |
| Solver.StartInv | zebra_solver.py:65-76 | the propagated initial domains with the empty assignment satisfy the search invariant |
| Solver.StepSound | zebra_solver.py:103-118 | assigning a consistent candidate, committing it and propagating keeps the search invariant |
| Solver.StepCommitted | zebra_solver.py:103-112 | after a step, the domains keep their shape and every committed entry stays a singleton domain |
| Solver.StepInjective | zebra_solver.py:103-106 | assigning a value still in the domain keeps every row injective |
| Solver.CompleteIsSolution | zebra_solver.py:93-95 | a complete assignment reached by the search is a solution |
| Solver.CompleteRows | zebra_solver.py:122-129 | a complete assignment has exactly the declared categories, each with a row over positions `0..n-1` |
| Solver.CandidatesAreDomain | zebra_solver.py:101 | under the search invariant the candidates are exactly the domain's values |
| Solver.SolutionFitsInitial | zebra_solver.py:66-68 | every solution fits the initial domains |
| Solver.SolutionBijective | zebra_solver.py:66-68 | every row of a solution that fits the domains uses each value once and every value of its category's list |
| Solver.SolutionCandidate | zebra_solver.py:101 | a solution's value at the chosen pair is among the candidates tried there |
| Solver.BacktrackChoice | zebra_solver.py:93-101 | on an incomplete assignment with a chosen pair, the search is the loop over that pair's candidate values |
| Solver.BacktrackComplete | zebra_solver.py:78-120 | if some solution fits the domains and extends the assignment, the search does not report "no solution" |
| Solver.TryValuesComplete | zebra_solver.py:101-120 | if the candidate list contains that solution's value at the pair, trying the list does not report "no solution" |
| Solver.TryValuesHead | zebra_solver.py:101-118 | if the first candidate passes the check and propagation and its recursive search does not report "no solution", neither does the loop |
| Solver.TryValuesTail | zebra_solver.py:101-120 | "no solution" for the whole list implies "no solution" for its remaining values |
| Solver.StepComplete | zebra_solver.py:103-112 | assigning the solution's value at an open pair passes the consistency check, and propagation keeps the solution inside the domains |
| Solver.CommitComplete | zebra_solver.py:111-112 | committing a solution's value and propagating succeeds and keeps the solution inside the domains |
| Solver.CommitBijective | zebra_solver.py:111 | committing a solution's value keeps the solution inside the domains, with its rows still using every listed value once |
| Solver.PropagateShaped | zebra_solver.py:112 | propagation keeps the number of categories and positions of the domains |
| Solver.AssignWithin | zebra_solver.py:103-106 | assigning the solution's own value keeps the assignment a part of the solution |
| Solver.SolveComplete | zebra_solver.py:57-76 | if the puzzle has a solution, the solver does not report "no solution" |
| Solver.NoSolutionMeansUnsolvable | zebra_solver.py:61-63 | "no solution" is reported only for puzzles that have no solution |
| Solver.StuckOnlyWithoutPositions | zebra_solver.py:89-98 | the search can only fail to pick a pair when there are no positions |
| Solver.NoPositionsFails | zebra_solver.py:89-98 | with zero positions and at least one category, no pair can be picked and the solver fails |
| Solver.Query | zebra_solver.py:271-305 | no answer exactly when the solution, the category or the value is missing; for a value first placed at `p`, the map of every category to its value at `p` when every row has `p`, and a missing-position error for `p` when some row lacks it |
| Solver.QueryOnSolution | zebra_solver.py:271-305 | on a solution, a value outside the category's list gets no answer; a listed value gets the full column at the one position holding it |
| Solver.QueryAt | zebra_solver.py:291-305 | when the value is first placed at p and every row has p, the answer is the column at p |
| Solver.ValuePosition | zebra_solver.py:291-295 | in a solution, every listed value sits at a position below `n` that every row has |
| Solver.FirstMismatch | zebra_solver.py:37-42 | finds the first category, from a start index on, whose length is not `n`, or reports that none is |
| Propagation.Initial | zebra_solver.py:65-68 | the initial domains give every category `n` positions, each allowing all of that category's values |
| Propagation.InitialFits | zebra_solver.py:65-68 | any full assignment drawn from the category lists fits the initial domains |
| Propagation.Commit | zebra_solver.py:165-187 | committing value v at (c, p) makes that domain `{v}`, removes v from the other positions of c, and leaves the other categories unchanged |
| Propagation.CommitShrinks | zebra_solver.py:165-187 | committing a value still in the domain only shrinks the domains |
| Propagation.CommitKeeps | zebra_solver.py:165-187 | committing the value that an injective solution row holds keeps that solution inside the domains |
| Propagation.RemoveElsewhere | zebra_solver.py:218-223 | removes v, and nothing else, from every other position of the row, keeps position p, and changes the row exactly when v occurred elsewhere |
| Propagation.Sweep | zebra_solver.py:213-223 | the singleton sweep over a row only shrinks it, and reports a change exactly when it changed the row |
| Propagation.SweepStable | zebra_solver.py:213-223 | a sweep that reports no change leaves every singleton disjoint from the other positions |
| Propagation.SweepCleared | zebra_solver.py:213-223 | a row whose singletons are already cleared passes the sweep unchanged |
| Propagation.SweepKeeps | zebra_solver.py:213-223 | the sweep never removes the value an injective solution row holds at a position |
| Propagation.SweepAll | zebra_solver.py:213-223 | singleton elimination over all categories only shrinks the domains, and reports a change exactly when the domains changed; each category is swept on its own row |
| Propagation.Only | zebra_solver.py:217 | the value of a singleton domain |
| Propagation.Admitting | zebra_solver.py:228-231 | lists, in increasing order, exactly the positions from a start on whose domain still allows the value |
| Propagation.AdmittingOne | zebra_solver.py:228-235 | exactly one position allows v iff the admitting list is that single position |
| Propagation.Pin | zebra_solver.py:225-239 | the pin sweep either reports a wipeout, or only shrinks the row and reports a change exactly when it changed it |
| Propagation.PinStable | zebra_solver.py:225-239 | a pin sweep reporting no change means every value is allowed somewhere, and a value allowed at only one position is pinned there |
| Propagation.PinSettled | zebra_solver.py:225-239 | a row where every value is allowed somewhere and the unique ones are pinned passes the pin sweep unchanged |
| Propagation.PinUnadmitted | zebra_solver.py:232-233 | a value of the category that no position allows makes the pin sweep report a wipeout |
| Propagation.PinKeeps | zebra_solver.py:225-239 | the pin sweep on a row that a solution row covers succeeds and keeps the solution inside the row |
| Propagation.PinAll | zebra_solver.py:225-239 | pinning over all categories fails exactly when pinning some category fails (`Propagation.PinUnadmitted` shows a value no position allows is one such case); otherwise it only shrinks the domains and reports a change exactly when they changed |
| Propagation.Pass | zebra_solver.py:203-239 | one propagation pass only shrinks the domains, and reports a change exactly when it made one |
| Propagation.PassStable | zebra_solver.py:203-241 | a pass reporting no change leaves the domains settled |
| Propagation.PassSettled | zebra_solver.py:203-239 | a pass over settled domains changes nothing |
| Propagation.PassKeeps | zebra_solver.py:203-239 | a pass over domains that contain a solution succeeds and still contains it |
| Propagation.Propagate | zebra_solver.py:189-241 | propagation to a fixpoint, when it succeeds, only shrinks the domains and ends settled: no empty domain, singletons removed elsewhere, every value allowed somewhere, unique places pinned |
| Propagation.PropagateSettled | zebra_solver.py:189-241 | settled domains are a fixpoint of propagation |
| Propagation.PropagateIdempotent | zebra_solver.py:189-241 | propagating already-propagated domains returns them unchanged |
| Propagation.PropagateKeeps | zebra_solver.py:189-241 | propagation never removes a solution's values: it succeeds and the result still contains the solution |
| Propagation.WipeoutFails | zebra_solver.py:207-211 | an empty domain makes propagation report unsatisfiability |
| Propagation.UnadmittedFails | zebra_solver.py:232-233 | a category value that no position allows makes propagation report unsatisfiability |
| Propagation.SizeMono | zebra_solver.py:203-205 | shrinking domains lowers the total domain size, strictly when anything changed, which bounds the fixpoint loop |
| Propagation.RowSizeMono | zebra_solver.py:203-205 | the same size bound for one category's row |
| Clues.Lookup | constraints.py:21-33 | the position of a committed value, the least one if several, and none exactly when it is not committed |
| Clues.FirstFrom | constraints.py:21-33 | the least position in a window holding the value, or none if the window holds it nowhere |
| Clues.MaxKey | constraints.py:199 | the largest committed position of a non-empty row |
| Clues.Pair | constraints.py:21-35 | both positions exactly when both values are committed, each the first position holding its value |
| Clues.Eval | constraints.py:10-291 | evaluating a clue can fail only for at_edge, and then with its edge name |
| Clues.EvalErrors | constraints.py:184-208 | evaluation raises exactly for an at_edge clue whose edge is not "first", "last" or "either" and whose value is committed |
| Clues.PairClueMeaning | constraints.py:35-289 | once both values are placed, a pair clue holds iff its positions are related: equal for same_position, differing by one for adjacent, first smaller for left_of, first one more than the second for immediately_right_of, different for not_same_position |
| Clues.SingleClueMeaning | constraints.py:154-255 | once its value is placed, a single-value clue yields what it demands of that position: the target for at_position; position 0, the largest committed position, or either one for at_edge's "first", "last" and "either", an error for any other edge; the middle for middle_position; a listed position for one_of_positions |
| Clues.OpenWorld | constraints.py:10-291 | a clue one of whose values is not committed holds |
| Clues.EmptyAssignmentSatisfies | constraints.py:10-291 | every clue holds on the empty assignment |
| Clues.AtPositionIgnoresOccupant | constraints.py:163-165 | another value sitting at the target never makes at_position fail while its value is unplaced |
| Clues.NotSameIsNegation | constraints.py:260-291 | not_same_position is the negation of same_position once both values are placed, and both hold otherwise |
| Clues.EvalMonotone | constraints.py:10-291 | a clue holding on an assignment with injective rows holds on every part of it |
| Clues.InjectiveFirstPlaced | constraints.py:21-33 | in an injective row, the position holding a value is the one the lookup reports |
| Clues.PlacedCarries | constraints.py:21-33 | a placement in a part of an injective assignment is the first one both there and in the whole |
| Clues.MiddlePosition | constraints.py:213-236 | the factory rejects an even number of positions; otherwise it pins the value to the position `m` with `2m+1 = n` |
| Clues.Abs | constraints.py:72 | absolute value, as used by adjacent |

## Left out

- print_solution (zebra_solver.py:244-268) only formats output and is not modelled.
- The web front end, web_app.py, is not part of this model.
- The example puzzles, einstein_puzzle.py and example_puzzle.py, are not part of this model. They only build particular puzzles.
- Constraint descriptions are not modelled. They are display strings with no effect on solving.
- Clues are stored as values of the closed `Clue` datatype, not as opaque callables. Caller-written constraint functions outside the nine factories are not modelled.
- Category names are replaced by declaration indices. The category named in the length-mismatch error is its index, and the message text is replaced by the `Error` constructor's fields.
- Clues.Lookup: reports the least position holding the value, whereas the Python solver reports the first in the row dict's insertion order. The two agree whenever the row is injective, and every assignment the search builds is injective (`SearchInv`). Solver.Query finds the queried value's position through Lookup, so it too reports the least position; on a solution the row is injective and the answer is the same (`Solver.QueryOnSolution`).
- Solver.Candidates: tries values in the category's list order, whereas the Python solver iterates a Python set, whose order is unspecified. `Solver.CandidatesAreDomain` shows the set of values tried is the same. Which of several solutions is found first may differ.
- Solver.Select: the "infinity" sentinel for the best size so far is modelled as `Option`.
- Propagation.Propagate: the unused assignment parameter of `_propagate_constraints` is dropped.
- Copying domains and assignments per branch (deepcopy) is implicit, because every model value is immutable.
- Running time and search effort are not modelled.
- Negative `num_positions` is excluded by typing `n` as a natural number.
- Solver.Solve: with zero positions and at least one category, the Python solver fails while unpacking the missing MRV choice (a Python TypeError). This is modelled as `Failed(NoVariableLeft)`, and `NoPositionsFails` and `StuckOnlyWithoutPositions` show it is the only such case.
- Duplicate labels within a category are not rejected, because the Python solver does not reject them either. Solver.SolveComplete and Propagation.PropagateKeeps do not need the labels to be distinct.
- Clues.Eval: the at_position occupant test is reproduced as written (constraints.py:163-165), a test that always holds. at_edge's "last" is the largest position committed so far in that category's row, not `n-1` (constraints.py:199), again as written.

=== FILE: clues.dfy ===
/**
 The clue library: the nine clue shapes a puzzle can be built from, and their
 evaluation against a partial assignment. A clue only ever fails on a
 committed contradiction; a value that is not placed yet never makes it fail
 (open-world evaluation).
 */
module Clues {
  import opened Common

  /** The closed set of clue shapes, one per factory. */
  datatype Clue =
    | SamePosition(cat1: nat, val1: Value, cat2: nat, val2: Value)
    | Adjacent(cat1: nat, val1: Value, cat2: nat, val2: Value)
    | LeftOf(cat1: nat, val1: Value, cat2: nat, val2: Value)
    | ImmediatelyRightOf(cat1: nat, val1: Value, cat2: nat, val2: Value)
    | AtPosition(cat: nat, val: Value, position: int)
      /** edge is "first", "last" or "either"; any other string is only
          rejected when the clue is evaluated */
    | AtEdge(cat: nat, val: Value, edge: string := "either")
    | MiddleAt(cat: nat, val: Value, middle: int)
    | OneOfPositions(cat: nat, val: Value, positions: seq<int>)
    | NotSamePosition(cat1: nat, val1: Value, cat2: nat, val2: Value)

  predicate IsPairClue(k: Clue) {
    k.SamePosition? || k.Adjacent? || k.LeftOf? || k.ImmediatelyRightOf? || k.NotSamePosition?
  }

  predicate IsSingleClue(k: Clue) {
    k.AtPosition? || k.AtEdge? || k.MiddleAt? || k.OneOfPositions?
  }

  /** p is the least position at which v of category c is committed. */
  ghost predicate FirstPlaced(a: Assignment, c: nat, v: Value, p: nat) {
    Placed(a, c, v, p) && forall q :: Placed(a, c, v, q) ==> p <= q
  }

  ghost predicate Found(a: Assignment, c: nat, v: Value) {
    exists p :: Placed(a, c, v, p)
  }

  lemma {:induction false} GreatestExists(s: set<nat>)
    requires s != {}
    ensures exists p :: p in s && forall q :: q in s ==> q <= p
  {
    var x :| x in s;
    var rest := s - {x};
    if rest == {} {
      forall q | q in s ensures q == x {
        assert q !in rest;
      }
    } else {
      GreatestExists(rest);
      var y :| y in rest && forall q :: q in rest ==> q <= y;
      var m := if y < x then x else y;
      forall q | q in s ensures q <= m {
        if q != x { assert q in rest; }
      }
      assert m in s;
    }
  }

  /**
   The position of v in category c, if committed. Where a row holds v twice
   the least position is reported.
   */
  function Lookup(a: Assignment, c: nat, v: Value): (r: Option<nat>)
    ensures r.Some? ==> FirstPlaced(a, c, v, r.value)
    ensures r.None? <==> !Found(a, c, v)
  {
    if c in a && a[c] != map[] then FirstFrom(a[c], v, 0, MaxKey(a[c])) else None
  }

  /** The least position from i up to hi holding v. */
  function FirstFrom(s: Row, v: Value, i: nat, hi: nat): (r: Option<nat>)
    ensures r.Some? ==> i <= r.value <= hi && r.value in s && s[r.value] == v
                        && forall q :: i <= q < r.value && q in s ==> s[q] != v
    ensures r.None? ==> forall q :: i <= q <= hi && q in s ==> s[q] != v
    decreases hi + 1 - i
  {
    if i > hi then None
    else if i in s && s[i] == v then Some(i)
    else FirstFrom(s, v, i + 1, hi)
  }

  /** The largest position committed in a non-empty row. */
  function MaxKey(s: Row): (m: nat)
    requires s != map[]
    ensures m in s && forall q :: q in s ==> q <= m
  {
    GreatestExists(s.Keys);
    var m :| m in s && forall q :: q in s ==> q <= m;
    m
  }

  /** The positions of two values, when both are committed. */
  function Pair(a: Assignment, c1: nat, v1: Value, c2: nat, v2: Value): (r: Option<(nat, nat)>)
    ensures r.Some? <==> Found(a, c1, v1) && Found(a, c2, v2)
    ensures r.Some? ==> FirstPlaced(a, c1, v1, r.value.0) && FirstPlaced(a, c2, v2, r.value.1)
  {
    match (Lookup(a, c1, v1), Lookup(a, c2, v2))
    case (Some(p1), Some(p2)) => Some((p1, p2))
    case _ => None
  }

  /** Evaluates a clue against a (partial) assignment. */
  function Eval(k: Clue, a: Assignment): (r: Result<bool>)
    ensures r.Err? ==> k.AtEdge? && r.error == InvalidEdge(k.edge)
  {
    match k
    case SamePosition(c1, v1, c2, v2) =>
      Ok(match Pair(a, c1, v1, c2, v2) case Some((p1, p2)) => p1 == p2 case None => true)
    case Adjacent(c1, v1, c2, v2) =>
      Ok(match Pair(a, c1, v1, c2, v2) case Some((p1, p2)) => Abs(p1 - p2) == 1 case None => true)
    case LeftOf(c1, v1, c2, v2) =>
      Ok(match Pair(a, c1, v1, c2, v2) case Some((p1, p2)) => p1 < p2 case None => true)
    case ImmediatelyRightOf(c1, v1, c2, v2) =>
      Ok(match Pair(a, c1, v1, c2, v2) case Some((p1, p2)) => p1 == p2 + 1 case None => true)
    case NotSamePosition(c1, v1, c2, v2) =>
      Ok(match Pair(a, c1, v1, c2, v2) case Some((p1, p2)) => p1 != p2 case None => true)
    case AtPosition(c, v, t) =>
      if c !in a then Ok(true)
      else
        (match Lookup(a, c, v)
         case Some(p) => Ok(p == t)
         case None =>
           // the occupant test of `at_position` is a tautology: it never fails
           if t >= 0 && t as nat in a[c] then Ok(a[c][t as nat] != v || a[c][t as nat] == v)
           else Ok(true))
    case AtEdge(c, v, edge) =>
      if c !in a then Ok(true)
      else
        (match Lookup(a, c, v)
         case None => Ok(true)
         case Some(p) =>
           // the last position is taken to be the largest one committed so far
           var numPositions := MaxKey(a[c]) + 1;
           if edge == "first" then Ok(p == 0)
           else if edge == "last" then Ok(p == numPositions - 1)
           else if edge == "either" then Ok(p == 0 || p == numPositions - 1)
           else Err(InvalidEdge(edge)))
    case MiddleAt(c, v, m) =>
      if c !in a then Ok(true)
      else
        (match Lookup(a, c, v)
         case Some(p) => Ok(p == m)
         case None => Ok(true))
    case OneOfPositions(c, v, ps) =>
      if c !in a then Ok(true)
      else
        match Lookup(a, c, v)
        case Some(p) => Ok(p in ps)
        case None => Ok(true)
  }

  function Abs(x: int): (r: int)
    ensures r >= 0 && (r == x || r == -x)
  {
    if x < 0 then -x else x
  }

  /**
   The middle_position factory: rejects an even number of positions at
   construction time, otherwise pins the value to the middle position.
   */
  function MiddlePosition(cat: nat, val: Value, numPositions: int): (r: Result<Clue>)
    ensures r.Err? <==> numPositions % 2 == 0
    ensures r.Err? ==> r.error == EvenMiddle(numPositions)
    ensures r.Ok? ==> r.value.MiddleAt? && r.value.cat == cat && r.value.val == val
                      && 2 * r.value.middle + 1 == numPositions
  {
    if numPositions % 2 == 0 then Err(EvenMiddle(numPositions))
    // floor division: Dafny's division agrees with Python's // for a positive divisor
    else Ok(MiddleAt(cat, val, numPositions / 2))
  }

  /** The relation a pair clue demands between the positions of its two values. */
  predicate Related(k: Clue, p1: int, p2: int)
    requires IsPairClue(k)
  {
    match k
    case SamePosition(_, _, _, _) => p1 == p2
    case Adjacent(_, _, _, _) => p1 == p2 + 1 || p2 == p1 + 1
    case LeftOf(_, _, _, _) => p1 < p2
    case ImmediatelyRightOf(_, _, _, _) => p1 == p2 + 1
    case NotSamePosition(_, _, _, _) => p1 != p2
  }

  /** p is the largest position committed in the row. */
  predicate IsLast(s: Row, p: nat) {
    p in s && forall q :: q in s ==> q <= p
  }

  /**
   What a single-value clue demands of the position p its value occupies in
   the row of its category.
   */
  function Demand(k: Clue, s: Row, p: nat): Result<bool>
    requires IsSingleClue(k)
  {
    match k
    case AtPosition(_, _, t) => Ok(p == t)
    case AtEdge(_, _, e) =>
      if e == "first" then Ok(p == 0)
      else if e == "last" then Ok(IsLast(s, p))
      else if e == "either" then Ok(p == 0 || IsLast(s, p))
      else Err(InvalidEdge(e))
    case MiddleAt(_, _, m) => Ok(p == m)
    case OneOfPositions(_, _, ps) => Ok(p in ps)
  }

  /** In an injective row, any position holding v is the one lookups report. */
  lemma InjectiveFirstPlaced(a: Assignment, c: nat, v: Value, p: nat)
    requires c in a ==> Injective(a[c])
    requires Placed(a, c, v, p)
    ensures FirstPlaced(a, c, v, p)
  {
  }

  /** When both values are placed, a pair clue holds iff their positions are related. */
  lemma PairClueMeaning(k: Clue, a: Assignment, p1: nat, p2: nat)
    requires IsPairClue(k)
    requires FirstPlaced(a, k.cat1, k.val1, p1) && FirstPlaced(a, k.cat2, k.val2, p2)
    ensures Eval(k, a) == Ok(Related(k, p1, p2))
  {
    assert Lookup(a, k.cat1, k.val1) == Some(p1);
    assert Lookup(a, k.cat2, k.val2) == Some(p2);
  }

  /** When its value is placed, a single-value clue yields what it demands of that position. */
  lemma SingleClueMeaning(k: Clue, a: Assignment, p: nat)
    requires IsSingleClue(k)
    requires FirstPlaced(a, k.cat, k.val, p)
    ensures Eval(k, a) == Demand(k, a[k.cat], p)
  {
    assert Lookup(a, k.cat, k.val) == Some(p);
    if k.AtEdge? {
      assert IsLast(a[k.cat], MaxKey(a[k.cat]));
      assert IsLast(a[k.cat], p) <==> p == MaxKey(a[k.cat]);
    }
  }

  /** A clue one of whose values is not placed yet holds. */
  lemma OpenWorld(k: Clue, a: Assignment)
    requires IsPairClue(k) ==> !Found(a, k.cat1, k.val1) || !Found(a, k.cat2, k.val2)
    requires IsSingleClue(k) ==> !Found(a, k.cat, k.val)
    ensures Eval(k, a) == Ok(true)
  {
  }

  /** Every clue holds on the empty assignment. */
  lemma EmptyAssignmentSatisfies(k: Clue)
    ensures Eval(k, map[]) == Ok(true)
  {
    OpenWorld(k, map[]);
  }

  /**
   The occupant of the target position never makes at_position fail: while
   the value itself is unplaced the clue holds, even if another value already
   sits at the target.
   */
  lemma AtPositionIgnoresOccupant(a: Assignment, c: nat, v: Value, t: nat)
    requires c in a && t in a[c] && a[c][t] != v
    requires !Found(a, c, v)
    ensures Eval(AtPosition(c, v, t), a) == Ok(true)
  {
  }

  /**
   An edge name other than "first", "last" or "either" is accepted when the
   clue is built and only raises once its value is placed; no other clue raises.
   */
  lemma EvalErrors(k: Clue, a: Assignment)
    ensures Eval(k, a).Err? <==>
              k.AtEdge? && k.edge != "first" && k.edge != "last" && k.edge != "either"
              && Found(a, k.cat, k.val)
    ensures Eval(k, a).Err? ==> Eval(k, a).error == InvalidEdge(k.edge)
  {
  }

  /** not_same_position is the negation of same_position once both values are placed. */
  lemma NotSameIsNegation(c1: nat, v1: Value, c2: nat, v2: Value, a: Assignment)
    ensures Eval(SamePosition(c1, v1, c2, v2), a).Ok?
    ensures Eval(NotSamePosition(c1, v1, c2, v2), a).Ok?
    ensures Found(a, c1, v1) && Found(a, c2, v2) ==>
              Eval(NotSamePosition(c1, v1, c2, v2), a).value == !Eval(SamePosition(c1, v1, c2, v2), a).value
    ensures !(Found(a, c1, v1) && Found(a, c2, v2)) ==>
              Eval(NotSamePosition(c1, v1, c2, v2), a).value && Eval(SamePosition(c1, v1, c2, v2), a).value
  {
  }

  /**
   A clue that holds on an assignment with injective rows also holds on every
   part of it: search may check clues on partial assignments without losing
   any solution.
   */
  lemma EvalMonotone(k: Clue, a: Assignment, b: Assignment)
    requires Extends(b, a)
    requires RowsInjective(b)
    requires Eval(k, b) == Ok(true)
    ensures Eval(k, a) == Ok(true)
  {
    if IsPairClue(k) {
      if Found(a, k.cat1, k.val1) && Found(a, k.cat2, k.val2) {
        var p1 :| Placed(a, k.cat1, k.val1, p1);
        var p2 :| Placed(a, k.cat2, k.val2, p2);
        PlacedCarries(a, b, k.cat1, k.val1, p1);
        PlacedCarries(a, b, k.cat2, k.val2, p2);
        PairClueMeaning(k, a, p1, p2);
        PairClueMeaning(k, b, p1, p2);
      }
    } else if Found(a, k.cat, k.val) {
      var p :| Placed(a, k.cat, k.val, p);
      PlacedCarries(a, b, k.cat, k.val, p);
      SingleClueMeaning(k, a, p);
      SingleClueMeaning(k, b, p);
      if k.AtEdge? {
        var m := MaxKey(b[k.cat]);
        assert a[k.cat].Keys <= b[k.cat].Keys;
      }
    }
  }

  /** A placement in a part of an injective assignment is the first one in both. */
  lemma PlacedCarries(a: Assignment, b: Assignment, c: nat, v: Value, p: nat)
    requires Extends(b, a) && RowsInjective(b)
    requires Placed(a, c, v, p)
    ensures FirstPlaced(a, c, v, p) && FirstPlaced(b, c, v, p)
  {
    assert Placed(b, c, v, p);
    forall q | Placed(a, c, v, q) ensures p <= q {
      assert Placed(b, c, v, q);
    }
  }
}

=== FILE: common.dfy ===
/**
 Shared vocabulary of the zebra-puzzle model: optional values, results that
 carry the errors the solver raises, partial assignments, and a few counting
 facts about finite sets used by the search proofs.
 */
module Common {

  /** A value label of some category ("English", "red", ...). */
  type Value = string

  datatype Option<+T> = None | Some(value: T)

  /** The exceptions the core raises, one constructor per raise site. */
  datatype Error =
    | LengthMismatch(category: nat, found: nat, expected: nat)  // ZebraPuzzle construction
    | EvenMiddle(numPositions: int)                              // middle_position factory
    | InvalidEdge(edge: string)                                  // at_edge predicate
    | NoVariableLeft                                             // unpacking a missing MRV choice
    | MissingPosition(position: nat)                             // query_solution row lookup

  datatype Result<+T> = Ok(value: T) | Err(error: Error)

  /** One category's committed entries: position -> value. */
  type Row = map<nat, Value>

  /**
   A (partial) assignment: category index -> committed row. A category that
   has no entry yet is simply absent, as in the Python solver's nested dictionaries.
   */
  type Assignment = map<nat, Row>

  /** Value v of category c is committed at position p. */
  predicate Placed(a: Assignment, c: nat, v: Value, p: nat) {
    c in a && p in a[c] && a[c][p] == v
  }

  /** No value occupies two positions of the row. */
  predicate Injective(s: Row) {
    forall p, q :: p in s && q in s && p != q ==> s[p] != s[q]
  }

  predicate RowsInjective(a: Assignment) {
    forall c :: c in a ==> Injective(a[c])
  }

  /** Every committed entry of a is also committed, with the same value, in b. */
  predicate Extends(b: Assignment, a: Assignment) {
    forall c, p :: c in a && p in a[c] ==> Placed(b, c, a[c][p], p)
  }

  /** The positions 0 .. n-1. */
  function Range(n: nat): (r: set<nat>)
    ensures forall p: nat :: p in r <==> p < n
  {
    if n == 0 then {} else Range(n - 1) + {n - 1}
  }

  /** The set of values listed in a sequence. */
  function Elems(vals: seq<Value>): (r: set<Value>)
    ensures forall v :: v in r <==> v in vals
  {
    set v | v in vals
  }

  lemma {:induction false} RangeCard(n: nat)
    ensures |Range(n)| == n
  {
    if n > 0 {
      RangeCard(n - 1);
      FreshCard(Range(n - 1), n - 1);
    }
  }

  /** Adding a value above every member grows a set by one. */
  lemma FreshCard(s: set<nat>, x: nat)
    requires forall p: nat :: p in s ==> p < x
    ensures |s + {x}| == |s| + 1
  {
    assert x !in s;
  }

  lemma {:induction false} ElemsCard(vals: seq<Value>)
    ensures |Elems(vals)| <= |vals|
  {
    if vals != [] {
      ElemsCard(vals[1..]);
      assert Elems(vals) == Elems(vals[1..]) + {vals[0]};
    }
  }

  /** A subset as large as its superset is the superset. */
  lemma SubsetCardEq<T>(a: set<T>, b: set<T>)
    requires a <= b && |b| <= |a|
    ensures a == b
  {
    assert |b - a| == |b| - |a|;
  }

  /** The values of an injective row are as many as its positions. */
  lemma {:induction false} InjectiveValuesCard(s: Row)
    requires Injective(s)
    ensures |s.Values| == |s.Keys|
  {
    if s != map[] {
      var k :| k in s;
      var t := s - {k};
      assert t.Keys == s.Keys - {k};
      assert t.Values == s.Values - {s[k]} by {
        forall v | v in s.Values - {s[k]} ensures v in t.Values {
          var q :| q in s && s[q] == v;
          assert q in t;
        }
      }
      InjectiveValuesCard(t);
    }
  }

  /**
   Pigeonhole: an injective row over positions 0 .. n-1 whose values are drawn
   from a list of n labels uses every label of that list.
   */
  lemma RowCoversValues(s: Row, vals: seq<Value>)
    requires s.Keys == Range(|vals|)
    requires Injective(s)
    requires forall p :: p in s ==> s[p] in vals
    ensures forall v :: v in vals ==> exists p :: p in s && s[p] == v
  {
    RangeCard(|vals|);
    InjectiveValuesCard(s);
    ElemsCard(vals);
    assert s.Values <= Elems(vals);
    SubsetCardEq(s.Values, Elems(vals));
    forall v | v in vals ensures exists p :: p in s && s[p] == v {
      assert v in s.Values;
    }
  }
}

=== FILE: propagation.dfy ===
/**
 Domains and their pruning. A domain is the set of values still possible at
 one (category, position) pair; propagation applies two all-different rules
 pass after pass until a pass changes nothing:
   - singleton elimination: a value that is the only candidate at a position
     is removed from the other positions of its category;
   - unique-position pinning: a value of the category's list that only one
     position still admits is fixed at that position.
 Propagation reports a wipeout (an empty domain, or a value no position
 admits) as None.
 */
module Propagation {
  import opened Common

  /** The candidate sets of one category, indexed by position. */
  type DomainRow = seq<set<Value>>

  /** The candidate sets of every category, indexed by category then position. */
  type Domains = seq<DomainRow>

  // ---------------------------------------------------------------------------
  // Shrinking and size
  // ---------------------------------------------------------------------------

  /** Row r is, position by position, contained in row s. */
  predicate RowSub(r: DomainRow, s: DomainRow) {
    |r| == |s| && forall p :: 0 <= p < |r| ==> r[p] <= s[p]
  }

  /** Domains d are, entry by entry, contained in domains e. */
  predicate Sub(d: Domains, e: Domains) {
    |d| == |e| && forall c :: 0 <= c < |d| ==> RowSub(d[c], e[c])
  }

  /** Total number of candidates of a row. */
  function RowSize(row: DomainRow): (total: nat) {
    if row == [] then 0 else |row[0]| + RowSize(row[1..])
  }

  /** Total number of candidates of all domains: the measure propagation decreases. */
  function Size(d: Domains): (total: nat) {
    if d == [] then 0 else RowSize(d[0]) + Size(d[1..])
  }

  lemma SubsetCard<T>(a: set<T>, b: set<T>)
    requires a <= b
    ensures |a| <= |b|
    ensures a != b ==> |a| < |b|
  {
    assert |b - a| == |b| - |a|;
    if a != b {
      var x :| x in b && x !in a;
      assert x in b - a;
    }
  }

  lemma RowSubChain(r: DomainRow, s: DomainRow, t: DomainRow)
    requires RowSub(r, s) && RowSub(s, t)
    ensures RowSub(r, t)
    ensures r == t ==> s == t
  {
    if r == t {
      assert forall p :: 0 <= p < |s| ==> s[p] == t[p];
    }
  }

  lemma SubChain(d: Domains, e: Domains, f: Domains)
    requires Sub(d, e) && Sub(e, f)
    ensures Sub(d, f)
    ensures d == f ==> e == f
  {
    forall c | 0 <= c < |d| ensures RowSub(d[c], f[c]) && (d[c] == f[c] ==> e[c] == f[c]) {
      RowSubChain(d[c], e[c], f[c]);
    }
    if d == f {
      assert forall c :: 0 <= c < |e| ==> e[c] == f[c];
    }
  }

  lemma {:induction false} RowSizeMono(r: DomainRow, s: DomainRow)
    requires RowSub(r, s)
    ensures RowSize(r) <= RowSize(s)
    ensures r != s ==> RowSize(r) < RowSize(s)
  {
    if r != [] {
      assert RowSub(r[1..], s[1..]);
      RowSizeMono(r[1..], s[1..]);
      SubsetCard(r[0], s[0]);
      if r[0] == s[0] && r[1..] == s[1..] {
        assert r == [r[0]] + r[1..] && s == [s[0]] + s[1..];
      }
    }
  }

  /** Shrinking never grows the measure, and shrinking strictly decreases it. */
  lemma {:induction false} SizeMono(d: Domains, e: Domains)
    requires Sub(d, e)
    ensures Size(d) <= Size(e)
    ensures d != e ==> Size(d) < Size(e)
  {
    if d != [] {
      assert Sub(d[1..], e[1..]);
      SizeMono(d[1..], e[1..]);
      RowSizeMono(d[0], e[0]);
      if d[0] == e[0] && d[1..] == e[1..] {
        assert d == [d[0]] + d[1..] && e == [e[0]] + e[1..];
      }
    }
  }

  // ---------------------------------------------------------------------------
  // Singleton elimination
  // ---------------------------------------------------------------------------

  lemma SingletonShape(s: set<Value>)
    requires |s| == 1
    ensures exists v :: v in s && s == {v}
  {
    var v :| v in s;
    assert |s - {v}| == 0;
    assert s == {v};
  }

  /** The one candidate of a singleton domain. */
  function Only(s: set<Value>): (v: Value)
    requires |s| == 1
    ensures s == {v}
  {
    SingletonShape(s);
    var v :| v in s && s == {v};
    v
  }

  /** v is a candidate at some position of the row other than p. */
  predicate OccursElsewhere(row: DomainRow, p: nat, v: Value) {
    exists q :: 0 <= q < |row| && q != p && v in row[q]
  }

  /** Removes v from every position of the row except p. */
  function RemoveElsewhere(row: DomainRow, p: nat, v: Value): (r: DomainRow)
    requires p < |row|
    ensures RowSub(r, row)
    ensures r[p] == row[p]
    ensures forall q :: 0 <= q < |row| && q != p ==> r[q] == row[q] - {v}
    ensures forall q :: 0 <= q < |row| && q != p ==> v !in r[q]
    ensures r != row <==> OccursElsewhere(row, p, v)
  {
    var r := seq(|row|, q requires 0 <= q < |row| => if q == p then row[q] else row[q] - {v});
    if OccursElsewhere(row, p, v) then
      var q :| 0 <= q < |row| && q != p && v in row[q];
      assert v !in r[q];
      r
    else
      assert forall q :: 0 <= q < |row| ==> r[q] == row[q];
      r
  }

  /**
   One sweep of singleton elimination over the positions p, p+1, ... of one
   category, each looked at in the row as the earlier steps left it. The flag
   is the `changed` flag of `_propagate_constraints`: some candidate was removed.
   */
  function Sweep(row: DomainRow, p: nat): (res: (DomainRow, bool))
    requires p <= |row|
    ensures RowSub(res.0, row)
    ensures res.1 <==> res.0 != row
    decreases |row| - p
  {
    if p == |row| then (row, false)
    else if |row[p]| == 1 then
      var v := Only(row[p]);
      var removed := OccursElsewhere(row, p, v);
      var next := Sweep(RemoveElsewhere(row, p, v), p + 1);
      RowSubChain(next.0, RemoveElsewhere(row, p, v), row);
      (next.0, next.1 || removed)
    else
      Sweep(row, p + 1)
  }

  // ---------------------------------------------------------------------------
  // Unique-position pinning
  // ---------------------------------------------------------------------------

  /** The positions from `from` on that still admit v, in ascending order. */
  function Admitting(row: DomainRow, v: Value, from: nat): (ps: seq<nat>)
    requires from <= |row|
    ensures forall i :: 0 <= i < |ps| ==> from <= ps[i] < |row| && v in row[ps[i]]
    ensures forall q :: from <= q < |row| && v in row[q] ==> q in ps
    ensures forall i, j :: 0 <= i < j < |ps| ==> ps[i] < ps[j]
    decreases |row| - from
  {
    if from == |row| then []
    else if v in row[from] then [from] + Admitting(row, v, from + 1)
    else Admitting(row, v, from + 1)
  }

  /**
   Pinning over the values vals[i..] of one category, in list order. None is
   the early `return None` of `_propagate_constraints` for a value no position admits.
   */
  function Pin(vals: seq<Value>, row: DomainRow, i: nat): (res: Option<(DomainRow, bool)>)
    requires i <= |vals|
    ensures res.Some? ==> RowSub(res.value.0, row) && (res.value.1 <==> res.value.0 != row)
    decreases |vals| - i
  {
    if i == |vals| then Some((row, false))
    else
      var v := vals[i];
      var ps := Admitting(row, v, 0);
      if |ps| == 0 then None
      else if |ps| == 1 && |row[ps[0]]| > 1 then
        var pinned := row[ps[0] := {v}];
        SubsetCard(pinned[ps[0]], row[ps[0]]);
        assert RowSub(pinned, row) && pinned != row;
        match Pin(vals, pinned, i + 1)
        case None => None
        case Some((r, _)) =>
          RowSubChain(r, pinned, row);
          Some((r, true))
      else
        Pin(vals, row, i + 1)
  }

  // ---------------------------------------------------------------------------
  // Passes and the fixpoint loop
  // ---------------------------------------------------------------------------

  /** Some domain is empty. */
  predicate HasWipeout(d: Domains) {
    exists c, p :: 0 <= c < |d| && 0 <= p < |d[c]| && d[c][p] == {}
  }

  /**
   Singleton elimination over every category. Each step only touches the row
   of its own category, so sweeping the rows one after another is the same as
   the nested loop of `_propagate_constraints`.
   */
  function SweepAll(d: Domains): (res: (Domains, bool))
    ensures |res.0| == |d|
    ensures forall c :: 0 <= c < |d| ==> res.0[c] == Sweep(d[c], 0).0
    ensures res.1 <==> exists c :: 0 <= c < |d| && Sweep(d[c], 0).1
    ensures Sub(res.0, d)
    ensures res.1 <==> res.0 != d
  {
    var swept := seq(|d|, c requires 0 <= c < |d| => Sweep(d[c], 0).0);
    var changed := exists c :: 0 <= c < |d| && Sweep(d[c], 0).1;
    assert changed <==> swept != d by {
      if swept != d {
        var c :| 0 <= c < |d| && swept[c] != d[c];
      }
    }
    (swept, changed)
  }

  /** Unique-position pinning over every category; None when any category fails. */
  function PinAll(cats: seq<seq<Value>>, d: Domains): (res: Option<(Domains, bool)>)
    requires |cats| == |d|
    ensures res.None? <==> exists c :: 0 <= c < |d| && Pin(cats[c], d[c], 0).None?
    ensures res.Some? ==> |res.value.0| == |d|
    ensures res.Some? ==> forall c :: 0 <= c < |d| ==> res.value.0[c] == Pin(cats[c], d[c], 0).value.0
    ensures res.Some? ==> (res.value.1 <==> exists c :: 0 <= c < |d| && Pin(cats[c], d[c], 0).value.1)
    ensures res.Some? ==> Sub(res.value.0, d)
    ensures res.Some? ==> (res.value.1 <==> res.value.0 != d)
  {
    if exists c :: 0 <= c < |d| && Pin(cats[c], d[c], 0).None? then None
    else
      var pinned := seq(|d|, c requires 0 <= c < |d| => Pin(cats[c], d[c], 0).value.0);
      var changed := exists c :: 0 <= c < |d| && Pin(cats[c], d[c], 0).value.1;
      assert changed <==> pinned != d by {
        if pinned != d {
          var c :| 0 <= c < |d| && pinned[c] != d[c];
        }
      }
      Some((pinned, changed))
  }

  /**
   One pass of the propagation loop: the wipeout check, then singleton
   elimination, then unique-position pinning. The flag reports whether the
   pass changed anything.
   */
  function Pass(cats: seq<seq<Value>>, d: Domains): (res: Option<(Domains, bool)>)
    requires |cats| == |d|
    ensures res.Some? ==> Sub(res.value.0, d)
    ensures res.Some? ==> (res.value.1 <==> res.value.0 != d)
  {
    if HasWipeout(d) then None
    else
      var swept := SweepAll(d);
      match PinAll(cats, swept.0)
      case None => None
      case Some((pinned, pinChanged)) =>
        SubChain(pinned, swept.0, d);
        Some((pinned, swept.1 || pinChanged))
  }

  /**
   Propagation to fixpoint: passes are repeated while the last one changed
   something. Every changing pass strictly shrinks the total domain size.
   */
  function Propagate(cats: seq<seq<Value>>, d: Domains): (r: Option<Domains>)
    requires |cats| == |d|
    ensures r.Some? ==> Sub(r.value, d) && Settled(cats, r.value)
    decreases Size(d)
  {
    match Pass(cats, d)
    case None => None
    case Some((e, changed)) =>
      if changed then
        SizeMono(e, d);
        var r := Propagate(cats, e);
        if r.Some? then SubChain(r.value, e, d); r else r
      else
        PassStable(cats, d);
        Some(e)
  }

  // ---------------------------------------------------------------------------
  // The fixpoint, stated independently of the passes
  // ---------------------------------------------------------------------------

  /** No domain of the row is empty. */
  ghost predicate NoneEmpty(row: DomainRow) {
    forall p :: 0 <= p < |row| ==> row[p] != {}
  }

  /** The value of every singleton domain is absent from the row's other positions. */
  ghost predicate SinglesCleared(row: DomainRow) {
    forall p, q :: 0 <= p < |row| && 0 <= q < |row| && p != q && |row[p]| == 1 ==> row[p] !! row[q]
  }

  /** Every value of the category's list is admitted by some position. */
  ghost predicate ValuesAdmitted(vals: seq<Value>, row: DomainRow) {
    forall v :: v in vals ==> exists p :: 0 <= p < |row| && v in row[p]
  }

  /** Position p is the only one of the row admitting v. */
  ghost predicate OnlyAdmits(row: DomainRow, v: Value, p: int) {
    0 <= p < |row| && v in row[p] && forall q :: 0 <= q < |row| && q != p ==> v !in row[q]
  }

  /** A value of the list admitted by exactly one position is pinned there. */
  ghost predicate UniquesPinned(vals: seq<Value>, row: DomainRow) {
    forall v, p :: v in vals && OnlyAdmits(row, v, p) ==> row[p] == {v}
  }

  ghost predicate RowSettled(vals: seq<Value>, row: DomainRow) {
    NoneEmpty(row) && SinglesCleared(row) && ValuesAdmitted(vals, row) && UniquesPinned(vals, row)
  }

  /** Neither rule applies anywhere and no domain is empty. */
  ghost predicate Settled(cats: seq<seq<Value>>, d: Domains) {
    |cats| == |d| && forall c :: 0 <= c < |d| ==> RowSettled(cats[c], d[c])
  }

  /** A sweep that changes nothing found every singleton already cleared. */
  lemma {:induction false} SweepStable(row: DomainRow, p: nat)
    requires p <= |row|
    requires !Sweep(row, p).1
    ensures forall q, q' :: p <= q < |row| && 0 <= q' < |row| && q != q' && |row[q]| == 1 ==> row[q] !! row[q']
    decreases |row| - p
  {
    if p < |row| {
      if |row[p]| == 1 {
        var v := Only(row[p]);
        assert !OccursElsewhere(row, p, v);
        assert RemoveElsewhere(row, p, v) == row;
        SweepStable(row, p + 1);
      } else {
        SweepStable(row, p + 1);
      }
    }
  }

  /** On a row whose singletons are cleared a sweep changes nothing. */
  lemma {:induction false} SweepCleared(row: DomainRow, p: nat)
    requires p <= |row|
    requires SinglesCleared(row)
    ensures Sweep(row, p) == (row, false)
    decreases |row| - p
  {
    if p < |row| {
      if |row[p]| == 1 {
        var v := Only(row[p]);
        assert !OccursElsewhere(row, p, v) by {
          forall q | 0 <= q < |row| && q != p ensures v !in row[q] {
            assert row[p] !! row[q];
          }
        }
        assert RemoveElsewhere(row, p, v) == row;
      }
      SweepCleared(row, p + 1);
    }
  }

  lemma AtMostOne(s: set<Value>, v: Value)
    requires v in s && |s| <= 1
    ensures s == {v}
  {
    assert |s - {v}| == |s| - 1;
  }

  /** A strictly ascending sequence of naturals spreads at least its length. */
  lemma {:induction false} AscendingSpread(ps: seq<nat>)
    requires |ps| > 0
    requires forall i, j :: 0 <= i < j < |ps| ==> ps[i] < ps[j]
    ensures ps[|ps| - 1] >= ps[0] + |ps| - 1
  {
    if |ps| > 1 {
      AscendingSpread(ps[..|ps| - 1]);
      assert ps[|ps| - 2] < ps[|ps| - 1];
    }
  }

  /** An ascending sequence with one value throughout has at most one entry. */
  lemma AtMostOneEntry(ps: seq<nat>, p: nat)
    requires forall i :: 0 <= i < |ps| ==> ps[i] == p
    requires forall i, j :: 0 <= i < j < |ps| ==> ps[i] < ps[j]
    ensures |ps| <= 1
  {
    if |ps| > 0 {
      AscendingSpread(ps);
    }
  }

  /** Exactly one position admits v iff the admitting list has length one. */
  lemma AdmittingOne(row: DomainRow, v: Value, p: nat)
    requires p < |row| && v in row[p]
    ensures OnlyAdmits(row, v, p) <==> |Admitting(row, v, 0)| == 1
    ensures OnlyAdmits(row, v, p) ==> Admitting(row, v, 0) == [p]
  {
    var ps := Admitting(row, v, 0);
    assert p in ps;
    if |ps| == 1 {
      forall q | 0 <= q < |row| && q != p ensures v !in row[q] {
      }
    }
    if OnlyAdmits(row, v, p) {
      forall i | 0 <= i < |ps| ensures ps[i] == p {
        assert v in row[ps[i]];
      }
      AtMostOneEntry(ps, p);
    }
  }

  /** Pinning that changes nothing found every value admitted and every unique one pinned. */
  lemma {:induction false} PinStable(vals: seq<Value>, row: DomainRow, i: nat)
    requires i <= |vals|
    requires Pin(vals, row, i) == Some((row, false))
    ensures forall j :: i <= j < |vals| ==> exists p :: 0 <= p < |row| && vals[j] in row[p]
    ensures forall j, p :: i <= j < |vals| && OnlyAdmits(row, vals[j], p) ==> row[p] == {vals[j]}
    decreases |vals| - i
  {
    if i < |vals| {
      var v := vals[i];
      var ps := Admitting(row, v, 0);
      assert |ps| != 0;
      assert !(|ps| == 1 && |row[ps[0]]| > 1);
      PinStable(vals, row, i + 1);
      var p0 := ps[0];
      assert v in row[p0];
      forall p | OnlyAdmits(row, v, p) ensures row[p] == {v} {
        AdmittingOne(row, v, p);
        AtMostOne(row[p], v);
      }
    }
  }

  /** On a row where every value is admitted and every unique one pinned, pinning changes nothing. */
  lemma {:induction false} PinSettled(vals: seq<Value>, row: DomainRow, i: nat)
    requires i <= |vals|
    requires ValuesAdmitted(vals, row) && UniquesPinned(vals, row)
    ensures Pin(vals, row, i) == Some((row, false))
    decreases |vals| - i
  {
    if i < |vals| {
      var v := vals[i];
      assert v in vals;
      var p :| 0 <= p < |row| && v in row[p];
      AdmittingOne(row, v, p);
      PinSettled(vals, row, i + 1);
    }
  }

  /** A pass that changes nothing ran on settled domains. */
  lemma PassStable(cats: seq<seq<Value>>, d: Domains)
    requires |cats| == |d|
    requires Pass(cats, d).Some? && !Pass(cats, d).value.1
    ensures Pass(cats, d).value.0 == d
    ensures Settled(cats, d)
  {
    var swept := SweepAll(d);
    forall c | 0 <= c < |d| ensures RowSettled(cats[c], d[c]) {
      assert !Sweep(d[c], 0).1;
      SweepStable(d[c], 0);
      assert swept.0[c] == d[c];
      assert swept.0 == d;
      var pin := Pin(cats[c], d[c], 0);
      assert pin.Some? && !pin.value.1;
      PinStable(cats[c], d[c], 0);
      forall v | v in cats[c] ensures exists p :: 0 <= p < |d[c]| && v in d[c][p] {
        var j :| 0 <= j < |cats[c]| && cats[c][j] == v;
      }
      forall v, p | v in cats[c] && OnlyAdmits(d[c], v, p) ensures d[c][p] == {v} {
        var j :| 0 <= j < |cats[c]| && cats[c][j] == v;
      }
    }
  }

  /** On settled domains a pass changes nothing. */
  lemma PassSettled(cats: seq<seq<Value>>, d: Domains)
    requires Settled(cats, d)
    ensures Pass(cats, d) == Some((d, false))
  {
    forall c | 0 <= c < |d| ensures Sweep(d[c], 0) == (d[c], false) {
      SweepCleared(d[c], 0);
    }
    var swept := SweepAll(d);
    assert swept.0 == d;
    forall c | 0 <= c < |d| ensures Pin(cats[c], d[c], 0) == Some((d[c], false)) {
      PinSettled(cats[c], d[c], 0);
    }
    var pinned := PinAll(cats, d);
    assert pinned.value.0 == d;
  }

  /** On settled domains propagation returns them unchanged. */
  lemma PropagateSettled(cats: seq<seq<Value>>, d: Domains)
    requires Settled(cats, d)
    ensures Propagate(cats, d) == Some(d)
  {
    PassSettled(cats, d);
  }

  /** Propagating the result of propagation again changes nothing. */
  lemma PropagateIdempotent(cats: seq<seq<Value>>, d: Domains)
    requires |cats| == |d|
    requires Propagate(cats, d).Some?
    ensures Propagate(cats, Propagate(cats, d).value) == Propagate(cats, d)
  {
    PropagateSettled(cats, Propagate(cats, d).value);
  }

  /** An empty domain makes propagation fail at once. */
  lemma WipeoutFails(cats: seq<seq<Value>>, d: Domains, c: nat, p: nat)
    requires |cats| == |d|
    requires c < |d| && p < |d[c]| && d[c][p] == {}
    ensures Propagate(cats, d) == None
  {
    assert HasWipeout(d);
  }

  /** Pinning fails once it reaches a value that no position admits. */
  lemma {:induction false} PinUnadmitted(vals: seq<Value>, row: DomainRow, i: nat, j: nat)
    requires i <= j < |vals|
    requires forall p :: 0 <= p < |row| ==> vals[j] !in row[p]
    ensures Pin(vals, row, i).None?
    decreases |vals| - i
  {
    if i < j {
      var v := vals[i];
      var ps := Admitting(row, v, 0);
      if |ps| == 1 && |row[ps[0]]| > 1 {
        var pinned := row[ps[0] := {v}];
        PinUnadmitted(vals, pinned, i + 1, j);
      } else if |ps| != 0 {
        PinUnadmitted(vals, row, i + 1, j);
      }
    }
  }

  /** A value of a category's list that no position admits makes propagation fail. */
  lemma UnadmittedFails(cats: seq<seq<Value>>, d: Domains, c: nat, v: Value)
    requires |cats| == |d|
    requires c < |d| && v in cats[c]
    requires forall p :: 0 <= p < |d[c]| ==> v !in d[c][p]
    ensures Propagate(cats, d) == None
  {
    if !HasWipeout(d) {
      var swept := SweepAll(d);
      assert RowSub(swept.0[c], d[c]);
      var j :| 0 <= j < |cats[c]| && cats[c][j] == v;
      PinUnadmitted(cats[c], swept.0[c], 0, j);
    }
  }

  // ---------------------------------------------------------------------------
  // Propagation keeps every solution the domains still allow
  // ---------------------------------------------------------------------------

  /** The row s of a complete solution is still allowed by the domain row. */
  ghost predicate RowFits(row: DomainRow, s: Row) {
    forall p :: 0 <= p < |row| ==> p in s && s[p] in row[p]
  }

  /** Every value of the list sits somewhere in positions 0 .. n-1 of s. */
  ghost predicate Covers(s: Row, vals: seq<Value>, n: nat) {
    forall v :: v in vals ==> exists p :: p < n && p in s && s[p] == v
  }

  /** The solution s is still allowed by all domains. */
  ghost predicate Fits(d: Domains, s: Assignment) {
    forall c :: 0 <= c < |d| ==> c in s && RowFits(d[c], s[c])
  }

  /** The rows of s use every value once and every value of their list. */
  ghost predicate Bijective(cats: seq<seq<Value>>, d: Domains, s: Assignment)
    requires |cats| == |d| && Fits(d, s)
  {
    forall c :: 0 <= c < |d| ==> Injective(s[c]) && Covers(s[c], cats[c], |d[c]|)
  }

  lemma {:induction false} SweepKeeps(row: DomainRow, p: nat, s: Row)
    requires p <= |row|
    requires RowFits(row, s) && Injective(s)
    ensures RowFits(Sweep(row, p).0, s)
    decreases |row| - p
  {
    if p < |row| {
      if |row[p]| == 1 {
        var v := Only(row[p]);
        var removed := RemoveElsewhere(row, p, v);
        forall q | 0 <= q < |row| ensures q in s && s[q] in removed[q] {
          if q != p {
            assert s[p] == v;
            assert s[q] != v;
          }
        }
        SweepKeeps(removed, p + 1, s);
      } else {
        SweepKeeps(row, p + 1, s);
      }
    }
  }

  lemma {:induction false} PinKeeps(vals: seq<Value>, row: DomainRow, i: nat, s: Row)
    requires i <= |vals|
    requires RowFits(row, s) && Covers(s, vals, |row|)
    ensures Pin(vals, row, i).Some?
    ensures RowFits(Pin(vals, row, i).value.0, s)
    decreases |vals| - i
  {
    if i < |vals| {
      var v := vals[i];
      var ps := Admitting(row, v, 0);
      assert v in vals;
      var q :| q < |row| && q in s && s[q] == v;
      assert q in ps;
      if |ps| == 1 && |row[ps[0]]| > 1 {
        assert ps[0] == q;
        var pinned := row[ps[0] := {v}];
        PinKeeps(vals, pinned, i + 1, s);
      } else {
        PinKeeps(vals, row, i + 1, s);
      }
    }
  }

  lemma PassKeeps(cats: seq<seq<Value>>, d: Domains, s: Assignment)
    requires |cats| == |d| && Fits(d, s) && Bijective(cats, d, s)
    ensures Pass(cats, d).Some?
    ensures Fits(Pass(cats, d).value.0, s)
  {
    var swept := SweepAll(d);
    forall c | 0 <= c < |d| ensures RowFits(swept.0[c], s[c]) {
      SweepKeeps(d[c], 0, s[c]);
    }
    forall c | 0 <= c < |d| ensures Pin(cats[c], swept.0[c], 0).Some? && RowFits(Pin(cats[c], swept.0[c], 0).value.0, s[c]) {
      PinKeeps(cats[c], swept.0[c], 0, s[c]);
    }
  }

  /**
   Propagation never removes a value of a complete solution whose rows are
   bijective: on such domains it succeeds and the solution still fits.
   */
  lemma PropagateKeeps(cats: seq<seq<Value>>, d: Domains, s: Assignment)
    requires |cats| == |d| && Fits(d, s) && Bijective(cats, d, s)
    ensures Propagate(cats, d).Some?
    ensures Fits(Propagate(cats, d).value, s)
    decreases Size(d)
  {
    PassKeeps(cats, d, s);
    var e := Pass(cats, d).value.0;
    if Pass(cats, d).value.1 {
      SizeMono(e, d);
      assert Bijective(cats, e, s);
      PropagateKeeps(cats, e, s);
    }
  }

  // ---------------------------------------------------------------------------
  // Initial domains and committing an assignment
  // ---------------------------------------------------------------------------

  /** Domains before any pruning: every position admits every value of its category. */
  function Initial(cats: seq<seq<Value>>, n: nat): (d: Domains)
    ensures |d| == |cats|
    ensures forall c :: 0 <= c < |d| ==> |d[c]| == n
    ensures forall c, p :: 0 <= c < |d| && 0 <= p < n ==> d[c][p] == Elems(cats[c])
  {
    seq(|cats|, c requires 0 <= c < |cats| => seq(n, p => Elems(cats[c])))
  }

  /** Every solution drawing its values from the category lists fits the initial domains. */
  lemma InitialFits(cats: seq<seq<Value>>, n: nat, s: Assignment)
    requires forall c :: 0 <= c < |cats| ==> c in s && (forall p :: 0 <= p < n ==> p in s[c] && s[c][p] in cats[c])
    ensures Fits(Initial(cats, n), s)
  {
  }

  /**
   Records the assignment of v at position p of category c: the domain there
   becomes {v}, v leaves every other position of the category, and every other
   domain is left as it was.
   */
  function Commit(d: Domains, c: nat, p: nat, v: Value): (r: Domains)
    requires c < |d| && p < |d[c]|
    ensures |r| == |d|
    ensures forall c' :: 0 <= c' < |d| && c' != c ==> r[c'] == d[c']
    ensures |r[c]| == |d[c]| && r[c][p] == {v}
    ensures forall q :: 0 <= q < |d[c]| && q != p ==> r[c][q] == d[c][q] - {v}
  {
    d[c := seq(|d[c]|, q requires 0 <= q < |d[c]| => if q == p then {v} else d[c][q] - {v})]
  }

  /** Committing a value its domain admits only shrinks the domains. */
  lemma CommitShrinks(d: Domains, c: nat, p: nat, v: Value)
    requires c < |d| && p < |d[c]| && v in d[c][p]
    ensures Sub(Commit(d, c, p, v), d)
  {
    var r := Commit(d, c, p, v);
    assert RowSub(r[c], d[c]);
  }

  /** A solution that places v at (c, p) with an injective row survives the commit. */
  lemma CommitKeeps(d: Domains, c: nat, p: nat, v: Value, s: Assignment)
    requires c < |d| && p < |d[c]|
    requires Fits(d, s) && Injective(s[c]) && s[c][p] == v
    ensures Fits(Commit(d, c, p, v), s)
  {
    var r := Commit(d, c, p, v);
    forall q | 0 <= q < |d[c]| ensures q in s[c] && s[c][q] in r[c][q] {
      if q != p {
        assert s[c][q] != v;
      }
    }
  }
}

=== FILE: solver.dfy ===
/**
 The solving engine: puzzle construction, clue registration, the
 minimum-remaining-values choice of the next (category, position) pair,
 depth-first backtracking over candidate values with propagation after every
 commitment, and the query helper that reads a solved grid.
 */
module Solver {
  import opened Common
  import opened Clues
  import opened Propagation

  /**
   A puzzle: the number of positions, the value list of every category in
   declaration order (a category is named by its index), and the clues in
   registration order.
   */
  datatype Puzzle = Puzzle(n: nat, cats: seq<seq<Value>>, clues: seq<Clue>)

  /** The result of a search: a complete assignment, no solution, or a raised error. */
  datatype Outcome = Solved(solution: Assignment) | NoSolution | Failed(error: Error)

  /** Every category lists exactly one value per position. */
  predicate WellFormed(P: Puzzle) {
    forall c :: 0 <= c < |P.cats| ==> |P.cats[c]| == P.n
  }

  // ---------------------------------------------------------------------------
  // Construction and clue registration
  // ---------------------------------------------------------------------------

  /** The first category, from index i on, whose list length is not n. */
  function FirstMismatch(cats: seq<seq<Value>>, n: nat, i: nat): (r: Option<nat>)
    requires i <= |cats|
    ensures r.None? <==> forall c :: i <= c < |cats| ==> |cats[c]| == n
    ensures r.Some? ==> i <= r.value < |cats| && |cats[r.value]| != n
                        && forall c :: i <= c < r.value ==> |cats[c]| == n
    decreases |cats| - i
  {
    if i == |cats| then None
    else if |cats[i]| != n then Some(i)
    else FirstMismatch(cats, n, i + 1)
  }

  /**
   Builds a puzzle with no clues. A category whose list length differs from
   the number of positions is rejected, naming the first such category.
   */
  function NewPuzzle(n: nat, cats: seq<seq<Value>>): (r: Result<Puzzle>)
    ensures r.Ok? <==> forall c :: 0 <= c < |cats| ==> |cats[c]| == n
    ensures r.Ok? ==> r.value == Puzzle(n, cats, []) && WellFormed(r.value)
    ensures r.Err? ==> r.error.LengthMismatch? && r.error.category < |cats|
                       && r.error.found == |cats[r.error.category]| && r.error.expected == n
                       && r.error.found != n
                       && forall c :: 0 <= c < r.error.category ==> |cats[c]| == n
  {
    match FirstMismatch(cats, n, 0)
    case None => Ok(Puzzle(n, cats, []))
    case Some(c) => Err(LengthMismatch(c, |cats[c]|, n))
  }

  /** Registers one more clue after the existing ones. */
  function AddClue(P: Puzzle, k: Clue): (r: Puzzle)
    ensures r.n == P.n && r.cats == P.cats
    ensures |r.clues| == |P.clues| + 1 && r.clues[..|P.clues|] == P.clues && r.clues[|P.clues|] == k
  {
    P.(clues := P.clues + [k])
  }

  // ---------------------------------------------------------------------------
  // Consistency and completeness of assignments
  // ---------------------------------------------------------------------------

  /**
   Evaluates the clues in order and stops at the first that fails or raises;
   the assignment is consistent when every clue holds.
   */
  function CheckAll(clues: seq<Clue>, a: Assignment): (r: Result<bool>)
    ensures r == Ok(true) <==> forall i :: 0 <= i < |clues| ==> Eval(clues[i], a) == Ok(true)
    ensures r != Ok(true) ==>
              exists i :: 0 <= i < |clues| && r == Eval(clues[i], a)
                          && forall j :: 0 <= j < i ==> Eval(clues[j], a) == Ok(true)
  {
    if clues == [] then Ok(true)
    else
      match Eval(clues[0], a)
      case Err(e) => Err(e)
      case Ok(b) =>
        if !b then Ok(false)
        else
          var r := CheckAll(clues[1..], a);
          FirstFailShift(clues, a, r);
          r
  }

  /** A failing clue of the tail is a failing clue of the whole list once the head holds. */
  lemma FirstFailShift(clues: seq<Clue>, a: Assignment, r: Result<bool>)
    requires clues != [] && Eval(clues[0], a) == Ok(true)
    requires r != Ok(true) ==>
               exists i :: 0 <= i < |clues[1..]| && r == Eval(clues[1..][i], a)
                           && forall j :: 0 <= j < i ==> Eval(clues[1..][j], a) == Ok(true)
    ensures r != Ok(true) ==>
              exists i :: 0 <= i < |clues| && r == Eval(clues[i], a)
                          && forall j :: 0 <= j < i ==> Eval(clues[j], a) == Ok(true)
  {
    if r != Ok(true) {
      var i :| 0 <= i < |clues[1..]| && r == Eval(clues[1..][i], a)
               && forall j :: 0 <= j < i ==> Eval(clues[1..][j], a) == Ok(true);
      assert r == Eval(clues[i + 1], a);
      assert forall j :: 0 <= j < i + 1 ==> Eval(clues[j], a) == Ok(true) by {
        forall j | 0 <= j < i + 1 ensures Eval(clues[j], a) == Ok(true) {
          if j > 0 { assert clues[j] == clues[1..][j - 1]; }
        }
      }
    }
  }

  /** Checking the clues raises only the invalid-edge error. */
  lemma CheckAllErrors(clues: seq<Clue>, a: Assignment)
    ensures CheckAll(clues, a).Err? ==> CheckAll(clues, a).error.InvalidEdge?
  {
    if CheckAll(clues, a).Err? {
      var i :| 0 <= i < |clues| && CheckAll(clues, a) == Eval(clues[i], a)
               && forall j :: 0 <= j < i ==> Eval(clues[j], a) == Ok(true);
      EvalErrors(clues[i], a);
    }
  }

  /** Position p of category c is committed. */
  predicate Assigned(a: Assignment, c: nat, p: nat) {
    c in a && p in a[c]
  }

  /** (c, p) is a pair of the puzzle that is not committed yet. */
  predicate Open(P: Puzzle, a: Assignment, c: nat, p: nat) {
    c < |P.cats| && p < P.n && !Assigned(a, c, p)
  }

  /** Every category holds as many entries as there are positions. */
  predicate IsComplete(P: Puzzle, a: Assignment) {
    forall c :: 0 <= c < |P.cats| ==> c in a && |a[c]| == P.n
  }

  /** The pairs still open: the measure the search decreases. */
  function Unassigned(P: Puzzle, a: Assignment): (r: set<(nat, nat)>)
    ensures forall c: nat, p: nat :: (c, p) in r <==> Open(P, a, c, p)
  {
    set c: nat, p: nat | c < |P.cats| && p < P.n && !Assigned(a, c, p) :: (c, p)
  }

  /** Commits value v at position p of category c. */
  function Assign(a: Assignment, c: nat, p: nat, v: Value): (r: Assignment)
    ensures Placed(r, c, v, p)
    ensures r.Keys == a.Keys + {c}
    ensures forall c', q :: Assigned(r, c', q) <==> Assigned(a, c', q) || (c' == c && q == p)
    ensures forall c', q :: Assigned(a, c', q) && !(c' == c && q == p) ==> Placed(r, c', a[c'][q], q)
  {
    a[c := (if c in a then a[c] else map[])[p := v]]
  }

  lemma AssignShrinks(P: Puzzle, a: Assignment, c: nat, p: nat, v: Value)
    requires Open(P, a, c, p)
    ensures Unassigned(P, Assign(a, c, p, v)) < Unassigned(P, a)
  {
    assert (c, p) in Unassigned(P, a);
    assert Unassigned(P, Assign(a, c, p, v)) == Unassigned(P, a) - {(c, p)};
  }

  // ---------------------------------------------------------------------------
  // Variable choice
  // ---------------------------------------------------------------------------

  /** Domains hold one row per category and one entry per position. */
  predicate Shaped(P: Puzzle, d: Domains) {
    |d| == |P.cats| && forall c :: 0 <= c < |d| ==> |d[c]| == P.n
  }

  /** (c1, p1) comes before (c2, p2): category order first, then ascending position. */
  predicate Before(c1: nat, p1: nat, c2: nat, p2: nat) {
    c1 < c2 || (c1 == c2 && p1 < p2)
  }

  /**
   (c, p) is open, no open pair has fewer candidates, and every open pair
   before it has strictly more.
   */
  ghost predicate MinRemaining(P: Puzzle, a: Assignment, d: Domains, c: nat, p: nat)
    requires Shaped(P, d)
  {
    && Open(P, a, c, p)
    && forall c': nat, p': nat :: Open(P, a, c', p') ==>
         |d[c][p]| <= |d[c'][p']| && (Before(c', p', c, p) ==> |d[c][p]| < |d[c'][p']|)
  }

  /** What the scan has established about the pairs before (c, p). */
  ghost predicate ScanInv(P: Puzzle, a: Assignment, d: Domains, c: nat, p: nat, best: Option<(nat, nat)>)
    requires Shaped(P, d)
  {
    match best
    case None => forall c': nat, p': nat :: Open(P, a, c', p') ==> !Before(c', p', c, p)
    case Some((bc, bp)) =>
      && Open(P, a, bc, bp) && Before(bc, bp, c, p)
      && forall c': nat, p': nat :: Open(P, a, c', p') && Before(c', p', c, p) ==>
           |d[bc][bp]| <= |d[c'][p']| && (Before(c', p', bc, bp) ==> |d[bc][bp]| < |d[c'][p']|)
  }

  /**
   The scan of the nested loop of `_select_unassigned_variable` from (c, p) on, with `best` the pair
   of strictly smallest domain seen so far (None stands for the infinite
   initial minimum).
   */
  function Scan(P: Puzzle, a: Assignment, d: Domains, c: nat, p: nat, best: Option<(nat, nat)>): (r: Option<(nat, nat)>)
    requires Shaped(P, d)
    requires c <= |P.cats| && p <= P.n
    requires ScanInv(P, a, d, c, p, best)
    ensures r.None? <==> forall c', p' :: !Open(P, a, c', p')
    ensures r.Some? ==> MinRemaining(P, a, d, r.value.0, r.value.1)
    decreases |P.cats| - c, P.n - p
  {
    if c == |P.cats| then best
    else if p == P.n then Scan(P, a, d, c + 1, 0, best)
    else if Assigned(a, c, p) then Scan(P, a, d, c, p + 1, best)
    else if best.None? || |d[c][p]| < |d[best.value.0][best.value.1]| then Scan(P, a, d, c, p + 1, Some((c, p)))
    else Scan(P, a, d, c, p + 1, best)
  }

  /**
   Minimum remaining values: the open pair with the fewest candidates, the
   first such in category order and then ascending position; None when every
   pair is committed.
   */
  function Select(P: Puzzle, a: Assignment, d: Domains): (r: Option<(nat, nat)>)
    requires Shaped(P, d)
    ensures r.None? <==> forall c, p :: !Open(P, a, c, p)
    ensures r.Some? ==> MinRemaining(P, a, d, r.value.0, r.value.1)
  {
    Scan(P, a, d, 0, 0, None)
  }

  // ---------------------------------------------------------------------------
  // Search
  // ---------------------------------------------------------------------------

  /**
   The values of the list that the domain admits, each once, in list order:
   the order in which candidates are tried.
   */
  function Candidates(vals: seq<Value>, dom: set<Value>): (r: seq<Value>)
    ensures forall v :: v in r <==> v in vals && v in dom
    ensures forall i, j :: 0 <= i < j < |r| ==> r[i] != r[j]
  {
    if vals == [] then []
    else if vals[0] in dom then [vals[0]] + Candidates(vals[1..], dom - {vals[0]})
    else Candidates(vals[1..], dom)
  }

  lemma ExtendsTrans(a: Assignment, b: Assignment, e: Assignment)
    requires Extends(b, a) && Extends(e, b)
    ensures Extends(e, a)
  {
    forall c, p | c in a && p in a[c] ensures Placed(e, c, a[c][p], p) {
      assert Placed(b, c, a[c][p], p);
    }
  }

  lemma SolvedExtends(a: Assignment, b: Assignment, r: Outcome)
    requires Extends(b, a)
    requires r.Solved? ==> Extends(r.solution, b)
    ensures r.Solved? ==> Extends(r.solution, a)
  {
    if r.Solved? {
      ExtendsTrans(a, b, r.solution);
    }
  }

  lemma AssignExtends(P: Puzzle, a: Assignment, c: nat, p: nat, v: Value)
    requires Open(P, a, c, p)
    ensures Extends(Assign(a, c, p, v), a)
  {
    var r := Assign(a, c, p, v);
    forall c', q | c' in a && q in a[c'] ensures Placed(r, c', a[c'][q], q) {
      assert Assigned(a, c', q);
    }
  }

  /**
   Depth-first search from a partial assignment and its domains: a complete
   assignment is returned as it is, otherwise the MRV pair is tried with each
   candidate in turn.
   */
  function Backtrack(P: Puzzle, a: Assignment, d: Domains): (r: Outcome)
    requires Shaped(P, d)
    ensures r.Solved? ==> IsComplete(P, r.solution) && Extends(r.solution, a)
    decreases Unassigned(P, a), 1, 0
  {
    if IsComplete(P, a) then Solved(a)
    else
      match Select(P, a, d)
      // no open pair is left although a category is incomplete: the Python solver
      // fails unpacking the missing choice
      case None => Failed(NoVariableLeft)
      case Some((c, p)) => TryValues(P, a, d, c, p, Candidates(P.cats[c], d[c][p]))
  }

  /**
   The candidate loop at the pair (c, p): a candidate is committed when every
   clue holds on the extended assignment, the domains are updated and
   propagated, and the search recurses; the first success or raised error is
   returned, and the next candidate is tried otherwise.
   */
  function TryValues(P: Puzzle, a: Assignment, d: Domains, c: nat, p: nat, vs: seq<Value>): (r: Outcome)
    requires Shaped(P, d) && Open(P, a, c, p)
    ensures r.Solved? ==> IsComplete(P, r.solution) && Extends(r.solution, a)
    decreases Unassigned(P, a), 0, |vs|
  {
    if vs == [] then NoSolution
    else
      var a' := Assign(a, c, p, vs[0]);
      match CheckAll(P.clues, a')
      case Err(e) => Failed(e)
      case Ok(consistent) =>
        if !consistent then TryValues(P, a, d, c, p, vs[1..])
        else
          match Propagate(P.cats, Commit(d, c, p, vs[0]))
          case None => TryValues(P, a, d, c, p, vs[1..])
          case Some(d') =>
            AssignShrinks(P, a, c, p, vs[0]);
            var r := Backtrack(P, a', d');
            if r.NoSolution? then TryValues(P, a, d, c, p, vs[1..])
            else
              AssignExtends(P, a, c, p, vs[0]);
              SolvedExtends(a, a', r);
              r
  }

  /** A complete assignment whose rows are bijections onto the value lists and that satisfies every clue. */
  ghost predicate IsSolution(P: Puzzle, s: Assignment) {
    && (forall c: nat :: c in s <==> c < |P.cats|)
    && (forall c :: c in s ==> s[c].Keys == Range(P.n) && Injective(s[c])
                               && forall p :: p in s[c] ==> s[c][p] in P.cats[c])
    && CheckAll(P.clues, s) == Ok(true)
  }

  /**
   Solves a puzzle: the full domains are propagated, a wipeout reports no
   solution, and otherwise the search starts from the empty assignment.
   */
  function Solve(P: Puzzle): (r: Outcome)
    ensures r.Solved? ==> IsSolution(P, r.solution)
  {
    match Propagate(P.cats, Initial(P.cats, P.n))
    case None => NoSolution
    case Some(d) =>
      StartInv(P, d);
      BacktrackSound(P, map[], d);
      Backtrack(P, map[], d)
  }

  /** The value each category holds at position p, for the categories that fill it. */
  function Column(s: Assignment, p: nat): (m: map<nat, Value>)
    ensures forall c :: c in m <==> c in s && p in s[c]
    ensures forall c :: c in m ==> m[c] == s[c][p]
  {
    map c | c in s && p in s[c] :: s[c][p]
  }

  /**
   The query helper: the values every category holds at the position where
   category c holds v. None when there is no solution, c is not in it, or no
   position of c holds v; an error when another row lacks that position.
   */
  function Query(solution: Option<Assignment>, c: nat, v: Value): (r: Result<Option<map<nat, Value>>>)
    ensures solution.None? ==> r == Ok(None)
    ensures solution.Some? && (c !in solution.value || !Found(solution.value, c, v)) ==> r == Ok(None)
    ensures r.Ok? && r.value.Some? ==>
              solution.Some? &&
              exists p :: FirstPlaced(solution.value, c, v, p)
                && r.value.value.Keys == solution.value.Keys
                && forall c' :: c' in solution.value ==> p in solution.value[c'] && r.value.value[c'] == solution.value[c'][p]
    ensures r.Err? ==> solution.Some? && r.error.MissingPosition?
                       && FirstPlaced(solution.value, c, v, r.error.position)
                       && exists c' :: c' in solution.value && r.error.position !in solution.value[c']
    ensures solution.Some? && Found(solution.value, c, v) ==> r != Ok(None)
    ensures solution.Some? ==>
              forall p :: FirstPlaced(solution.value, c, v, p) ==>
                ((forall c' :: c' in solution.value ==> p in solution.value[c']) ==> r == Ok(Some(Column(solution.value, p))))
                && ((exists c' :: c' in solution.value && p !in solution.value[c']) ==> r == Err(MissingPosition(p)))
  {
    if solution.None? || c !in solution.value then Ok(None)
    else
      var s := solution.value;
      match Lookup(s, c, v)
      case None => Ok(None)
      case Some(p) =>
        if forall c' :: c' in s ==> p in s[c'] then Ok(Some(Column(s, p)))
        else Err(MissingPosition(p))
  }

  // ---------------------------------------------------------------------------
  // Soundness of the search
  // ---------------------------------------------------------------------------

  /** No domain is empty and every singleton's value is cleared from the rest of its row. */
  ghost predicate DomainsCleared(d: Domains) {
    forall c :: 0 <= c < |d| ==> NoneEmpty(d[c]) && SinglesCleared(d[c])
  }

  /** Domains hold only values of their category's list. */
  ghost predicate DomainsInLists(P: Puzzle, d: Domains)
    requires Shaped(P, d)
  {
    forall c, p :: 0 <= c < |d| && 0 <= p < |d[c]| ==> d[c][p] <= Elems(P.cats[c])
  }

  /** Each committed entry lies in the grid, is a value of its list, and its domain is pinned to it. */
  ghost predicate Committed(P: Puzzle, a: Assignment, d: Domains)
    requires Shaped(P, d)
  {
    forall c :: c in a ==> c < |P.cats| && forall p :: p in a[c] ==>
      p < P.n && d[c][p] == {a[c][p]} && a[c][p] in P.cats[c]
  }

  /**
   What holds at every search node: the domains are shaped, cleared and drawn
   from the lists, every committed entry is pinned, rows are injective, and
   every clue holds.
   */
  ghost predicate SearchInv(P: Puzzle, a: Assignment, d: Domains) {
    && Shaped(P, d)
    && DomainsCleared(d)
    && DomainsInLists(P, d)
    && Committed(P, a, d)
    && RowsInjective(a)
    && CheckAll(P.clues, a) == Ok(true)
  }

  lemma StartInv(P: Puzzle, d: Domains)
    requires Settled(P.cats, d) && Sub(d, Initial(P.cats, P.n))
    ensures SearchInv(P, map[], d)
  {
    forall k | k in P.clues ensures Eval(k, map[]) == Ok(true) {
      EmptyAssignmentSatisfies(k);
    }
  }

  /**
   Domains only ever hold values of their category's list, so the candidates
   tried at a pair are exactly the members of its domain.
   */
  lemma CandidatesAreDomain(P: Puzzle, a: Assignment, d: Domains, c: nat, p: nat)
    requires SearchInv(P, a, d) && c < |P.cats| && p < P.n
    ensures forall v :: v in Candidates(P.cats[c], d[c][p]) <==> v in d[c][p]
  {
    assert d[c][p] <= Elems(P.cats[c]);
  }

  /** A pinned domain that shrinks without emptying stays pinned. */
  lemma PinnedStays(s: set<Value>, t: set<Value>, v: Value)
    requires s <= t && t <= {v} && s != {}
    ensures s == {v}
  {
  }

  lemma {:induction false} BacktrackSound(P: Puzzle, a: Assignment, d: Domains)
    requires SearchInv(P, a, d)
    ensures Backtrack(P, a, d).Solved? ==> IsSolution(P, Backtrack(P, a, d).solution)
    ensures Backtrack(P, a, d) == Failed(NoVariableLeft) ==> P.n == 0
    decreases Unassigned(P, a), 1, 0
  {
    if IsComplete(P, a) {
      CompleteIsSolution(P, a, d);
    } else if Select(P, a, d).Some? {
      var (c, p) := Select(P, a, d).value;
      TryValuesSound(P, a, d, c, p, Candidates(P.cats[c], d[c][p]));
    } else if P.n > 0 {
      ClosedComplete(P, a);
    }
  }

  /** A complete assignment reached by the search is a solution. */
  lemma CompleteIsSolution(P: Puzzle, a: Assignment, d: Domains)
    requires SearchInv(P, a, d) && IsComplete(P, a)
    ensures IsSolution(P, a)
  {
    CompleteRows(P, a, d);
  }

  /** A complete assignment inside the grid has every category and every position. */
  lemma CompleteRows(P: Puzzle, a: Assignment, d: Domains)
    requires Shaped(P, d) && Committed(P, a, d) && IsComplete(P, a)
    ensures forall c: nat :: c in a <==> c < |P.cats|
    ensures forall c :: c in a ==> a[c].Keys == Range(P.n)
  {
    forall c | c in a ensures a[c].Keys == Range(P.n) {
      RangeCard(P.n);
      SubsetCardEq(a[c].Keys, Range(P.n));
    }
  }

  lemma {:induction false} TryValuesSound(P: Puzzle, a: Assignment, d: Domains, c: nat, p: nat, vs: seq<Value>)
    requires SearchInv(P, a, d) && Open(P, a, c, p)
    requires forall v :: v in vs ==> v in d[c][p] && v in P.cats[c]
    ensures TryValues(P, a, d, c, p, vs).Solved? ==> IsSolution(P, TryValues(P, a, d, c, p, vs).solution)
    ensures TryValues(P, a, d, c, p, vs) == Failed(NoVariableLeft) ==> P.n == 0
    decreases Unassigned(P, a), 0, |vs|
  {
    if vs != [] {
      var v := vs[0];
      var a' := Assign(a, c, p, v);
      CheckAllErrors(P.clues, a');
      if CheckAll(P.clues, a') == Ok(true) && Propagate(P.cats, Commit(d, c, p, v)).Some? {
        var d' := Propagate(P.cats, Commit(d, c, p, v)).value;
        AssignShrinks(P, a, c, p, v);
        StepSound(P, a, d, c, p, v, d');
        BacktrackSound(P, a', d');
      }
      TryValuesSound(P, a, d, c, p, vs[1..]);
      TryValuesOutcomeSound(P, a, d, c, p, vs);
    }
  }

  /** The search outcome is a solution when solved, and a stuck search means there are no positions. */
  ghost predicate OutcomeSound(P: Puzzle, r: Outcome) {
    && (r.Solved? ==> IsSolution(P, r.solution))
    && (r == Failed(NoVariableLeft) ==> P.n == 0)
  }

  /** The candidate loop's outcome is good when the tail's and the subtree's are. */
  lemma TryValuesOutcomeSound(P: Puzzle, a: Assignment, d: Domains, c: nat, p: nat, vs: seq<Value>)
    requires Shaped(P, d) && Open(P, a, c, p) && vs != []
    requires CheckAll(P.clues, Assign(a, c, p, vs[0])).Err? ==> CheckAll(P.clues, Assign(a, c, p, vs[0])).error.InvalidEdge?
    requires OutcomeSound(P, TryValues(P, a, d, c, p, vs[1..]))
    requires CheckAll(P.clues, Assign(a, c, p, vs[0])) == Ok(true) && Propagate(P.cats, Commit(d, c, p, vs[0])).Some? ==>
               Shaped(P, Propagate(P.cats, Commit(d, c, p, vs[0])).value) &&
               OutcomeSound(P, Backtrack(P, Assign(a, c, p, vs[0]), Propagate(P.cats, Commit(d, c, p, vs[0])).value))
    ensures OutcomeSound(P, TryValues(P, a, d, c, p, vs))
  {
  }

  /** Committing a consistent candidate and propagating keeps the search invariant. */
  lemma StepSound(P: Puzzle, a: Assignment, d: Domains, c: nat, p: nat, v: Value, d': Domains)
    requires SearchInv(P, a, d) && Open(P, a, c, p)
    requires v in d[c][p] && v in P.cats[c]
    requires CheckAll(P.clues, Assign(a, c, p, v)) == Ok(true)
    requires Sub(d', Commit(d, c, p, v)) && Settled(P.cats, d')
    ensures SearchInv(P, Assign(a, c, p, v), d')
  {
    CommitShrinks(d, c, p, v);
    SubChain(d', Commit(d, c, p, v), d);
    assert DomainsCleared(d');
    assert DomainsInLists(P, d') by {
      assert forall c', q :: 0 <= c' < |d'| && 0 <= q < |d'[c']| ==> d'[c'][q] <= d[c'][q];
    }
    StepCommitted(P, a, d, c, p, v, d');
    StepInjective(P, a, d, c, p, v);
  }

  /** The committed entries, old and new, stay pinned in the propagated domains. */
  lemma StepCommitted(P: Puzzle, a: Assignment, d: Domains, c: nat, p: nat, v: Value, d': Domains)
    requires Shaped(P, d) && Committed(P, a, d) && Open(P, a, c, p) && v in P.cats[c]
    requires Sub(d', Commit(d, c, p, v)) && DomainsCleared(d')
    ensures Shaped(P, d') && Committed(P, Assign(a, c, p, v), d')
  {
    var a' := Assign(a, c, p, v);
    var e := Commit(d, c, p, v);
    forall c', q | c' in a' && q in a'[c'] ensures d'[c'][q] == {a'[c'][q]} {
      assert RowSub(d'[c'], e[c']);
      if c' == c && q == p {
        PinnedStays(d'[c][p], e[c][p], v);
      } else {
        assert Assigned(a, c', q);
        PinnedStays(d'[c'][q], d[c'][q], a[c'][q]);
      }
    }
  }

  /** A candidate admitted by its domain differs from every value already in the row. */
  lemma StepInjective(P: Puzzle, a: Assignment, d: Domains, c: nat, p: nat, v: Value)
    requires Shaped(P, d) && Committed(P, a, d) && DomainsCleared(d) && RowsInjective(a)
    requires Open(P, a, c, p) && v in d[c][p]
    ensures RowsInjective(Assign(a, c, p, v))
  {
    var a' := Assign(a, c, p, v);
    forall q | q in a'[c] && q != p ensures a'[c][q] != v {
      assert Assigned(a, c, q);
      assert d[c][q] !! d[c][p];
    }
  }

  // ---------------------------------------------------------------------------
  // Completeness of the search
  // ---------------------------------------------------------------------------

  /** The clues hold on every part of a solution. */
  lemma CheckAllMonotone(clues: seq<Clue>, a: Assignment, s: Assignment)
    requires Extends(s, a) && RowsInjective(s)
    requires CheckAll(clues, s) == Ok(true)
    ensures CheckAll(clues, a) == Ok(true)
  {
    forall i | 0 <= i < |clues| ensures Eval(clues[i], a) == Ok(true) {
      EvalMonotone(clues[i], a, s);
    }
  }

  /** The rows of a solution of a well-formed puzzle are bijective onto their lists. */
  lemma SolutionBijective(P: Puzzle, s: Assignment, d: Domains)
    requires WellFormed(P) && IsSolution(P, s) && Shaped(P, d) && Fits(d, s)
    ensures Bijective(P.cats, d, s)
  {
    forall c | 0 <= c < |d| ensures Covers(s[c], P.cats[c], |d[c]|) {
      RowCoversValues(s[c], P.cats[c]);
    }
  }

  lemma {:induction false} BacktrackComplete(P: Puzzle, a: Assignment, d: Domains, s: Assignment)
    requires WellFormed(P) && IsSolution(P, s)
    requires Shaped(P, d) && Fits(d, s) && Extends(s, a)
    ensures Backtrack(P, a, d) != NoSolution
    decreases Unassigned(P, a), 1, 0
  {
    if !IsComplete(P, a) && Select(P, a, d).Some? {
      var (c, p) := Select(P, a, d).value;
      SolutionCandidate(P, d, c, p, s);
      TryValuesComplete(P, a, d, c, p, Candidates(P.cats[c], d[c][p]), s);
      BacktrackChoice(P, a, d);
    }
  }

  /** The solution's value at a pair is among the candidates tried there. */
  lemma SolutionCandidate(P: Puzzle, d: Domains, c: nat, p: nat, s: Assignment)
    requires IsSolution(P, s) && Shaped(P, d) && Fits(d, s) && c < |P.cats| && p < P.n
    ensures c in s && p in s[c] && s[c][p] in Candidates(P.cats[c], d[c][p])
  {
  }

  /** An incomplete node with an open pair runs the candidate loop at the MRV pair. */
  lemma BacktrackChoice(P: Puzzle, a: Assignment, d: Domains)
    requires Shaped(P, d) && !IsComplete(P, a) && Select(P, a, d).Some?
    ensures var (c, p) := Select(P, a, d).value;
            Backtrack(P, a, d) == TryValues(P, a, d, c, p, Candidates(P.cats[c], d[c][p]))
  {
  }

  /** The candidate loop reports no solution only when the remaining candidates do. */
  lemma TryValuesTail(P: Puzzle, a: Assignment, d: Domains, c: nat, p: nat, vs: seq<Value>)
    requires Shaped(P, d) && Open(P, a, c, p) && vs != []
    ensures TryValues(P, a, d, c, p, vs) == NoSolution ==> TryValues(P, a, d, c, p, vs[1..]) == NoSolution
  {
  }

  /** A candidate that passes and whose subtree does not fail decides the loop. */
  lemma TryValuesHead(P: Puzzle, a: Assignment, d: Domains, c: nat, p: nat, vs: seq<Value>, d': Domains)
    requires Shaped(P, d) && Open(P, a, c, p) && vs != []
    requires CheckAll(P.clues, Assign(a, c, p, vs[0])) == Ok(true)
    requires Propagate(P.cats, Commit(d, c, p, vs[0])) == Some(d')
    requires Shaped(P, d') && Backtrack(P, Assign(a, c, p, vs[0]), d') != NoSolution
    ensures TryValues(P, a, d, c, p, vs) != NoSolution
  {
  }

  lemma {:induction false} TryValuesComplete(P: Puzzle, a: Assignment, d: Domains, c: nat, p: nat, vs: seq<Value>, s: Assignment)
    requires WellFormed(P) && IsSolution(P, s)
    requires Shaped(P, d) && Fits(d, s) && Extends(s, a)
    requires Open(P, a, c, p) && s[c][p] in vs
    ensures TryValues(P, a, d, c, p, vs) != NoSolution
    decreases Unassigned(P, a), 0, |vs|
  {
    var v := vs[0];
    if v == s[c][p] {
      StepComplete(P, a, d, c, p, s);
      var d' := Propagate(P.cats, Commit(d, c, p, v)).value;
      AssignShrinks(P, a, c, p, v);
      BacktrackComplete(P, Assign(a, c, p, v), d', s);
      TryValuesHead(P, a, d, c, p, vs, d');
    } else {
      TryValuesComplete(P, a, d, c, p, vs[1..], s);
      TryValuesTail(P, a, d, c, p, vs);
    }
  }

  /** Committing the solution's own value at a pair keeps the assignment a part of the solution. */
  lemma AssignWithin(a: Assignment, c: nat, p: nat, s: Assignment)
    requires Extends(s, a) && c in s && p in s[c]
    ensures Extends(s, Assign(a, c, p, s[c][p]))
  {
    var a' := Assign(a, c, p, s[c][p]);
    forall c', q | c' in a' && q in a'[c'] ensures Placed(s, c', a'[c'][q], q) {
      if !(c' == c && q == p) {
        assert Assigned(a, c', q);
      }
    }
  }

  /**
   Committing the solution's own value at an open pair passes every clue,
   survives propagation, and leaves the solution allowed by the new domains.
   */
  lemma StepComplete(P: Puzzle, a: Assignment, d: Domains, c: nat, p: nat, s: Assignment)
    requires WellFormed(P) && IsSolution(P, s)
    requires Shaped(P, d) && Fits(d, s) && Extends(s, a) && Open(P, a, c, p)
    ensures CheckAll(P.clues, Assign(a, c, p, s[c][p])) == Ok(true)
    ensures Propagate(P.cats, Commit(d, c, p, s[c][p])).Some?
    ensures Fits(Propagate(P.cats, Commit(d, c, p, s[c][p])).value, s)
    ensures Shaped(P, Propagate(P.cats, Commit(d, c, p, s[c][p])).value)
    ensures Extends(s, Assign(a, c, p, s[c][p]))
  {
    AssignWithin(a, c, p, s);
    CheckAllMonotone(P.clues, Assign(a, c, p, s[c][p]), s);
    CommitComplete(P, d, c, p, s);
  }

  /** Committing the solution's own value and propagating keeps the solution allowed. */
  lemma CommitComplete(P: Puzzle, d: Domains, c: nat, p: nat, s: Assignment)
    requires WellFormed(P) && IsSolution(P, s)
    requires Shaped(P, d) && Fits(d, s) && c < |P.cats| && p < P.n
    ensures Propagate(P.cats, Commit(d, c, p, s[c][p])).Some?
    ensures Fits(Propagate(P.cats, Commit(d, c, p, s[c][p])).value, s)
    ensures Shaped(P, Propagate(P.cats, Commit(d, c, p, s[c][p])).value)
  {
    var e := Commit(d, c, p, s[c][p]);
    CommitBijective(P, d, c, p, s);
    PropagateKeeps(P.cats, e, s);
    PropagateShaped(P, e);
  }

  lemma CommitBijective(P: Puzzle, d: Domains, c: nat, p: nat, s: Assignment)
    requires WellFormed(P) && IsSolution(P, s)
    requires Shaped(P, d) && Fits(d, s) && c < |P.cats| && p < P.n
    ensures Shaped(P, Commit(d, c, p, s[c][p])) && Fits(Commit(d, c, p, s[c][p]), s)
    ensures Bijective(P.cats, Commit(d, c, p, s[c][p]), s)
  {
    var e := Commit(d, c, p, s[c][p]);
    assert Shaped(P, e);
    CommitKeeps(d, c, p, s[c][p], s);
    SolutionBijective(P, s, e);
  }

  lemma PropagateShaped(P: Puzzle, e: Domains)
    requires Shaped(P, e) && Propagate(P.cats, e).Some?
    ensures Shaped(P, Propagate(P.cats, e).value)
  {
  }

  /** A solution is allowed by the full initial domains. */
  lemma SolutionFitsInitial(P: Puzzle, s: Assignment)
    requires IsSolution(P, s)
    ensures Fits(Initial(P.cats, P.n), s)
  {
    forall c | 0 <= c < |P.cats| ensures c in s && forall p :: 0 <= p < P.n ==> p in s[c] && s[c][p] in P.cats[c] {
      assert c in s;
      FullRow(s[c], P.n);
    }
    InitialFits(P.cats, P.n, s);
  }

  /** A row over positions 0 .. n-1 fills each of them. */
  lemma FullRow(r: Row, n: nat)
    requires r.Keys == Range(n)
    ensures forall p :: 0 <= p < n ==> p in r
  {
    forall p: nat | p < n ensures p in r {
      assert p in Range(n);
    }
  }

  /**
   The search never reports "no solution" for a well-formed puzzle that has a
   solution; together with soundness, NoSolution means none exists.
   */
  lemma SolveComplete(P: Puzzle, s: Assignment)
    requires WellFormed(P) && IsSolution(P, s)
    ensures Solve(P) != NoSolution
  {
    var d0 := Initial(P.cats, P.n);
    SolutionFitsInitial(P, s);
    SolutionBijective(P, s, d0);
    PropagateKeeps(P.cats, d0, s);
    BacktrackComplete(P, map[], Propagate(P.cats, d0).value, s);
  }

  /** When Solve reports no solution for a well-formed puzzle, there is none. */
  lemma NoSolutionMeansUnsolvable(P: Puzzle)
    requires WellFormed(P) && Solve(P) == NoSolution
    ensures forall s :: !IsSolution(P, s)
  {
    forall s | IsSolution(P, s) ensures false {
      SolveComplete(P, s);
    }
  }

  // ---------------------------------------------------------------------------
  // Registration, candidates and the stuck state
  // ---------------------------------------------------------------------------

  /** A registered clue is checked together with the earlier ones. */
  lemma AddClueChecked(P: Puzzle, k: Clue, a: Assignment)
    ensures CheckAll(AddClue(P, k).clues, a) == Ok(true)
            <==> CheckAll(P.clues, a) == Ok(true) && Eval(k, a) == Ok(true)
  {
    var cs := AddClue(P, k).clues;
    if CheckAll(P.clues, a) == Ok(true) && Eval(k, a) == Ok(true) {
      forall i | 0 <= i < |cs| ensures Eval(cs[i], a) == Ok(true) {
        if i < |P.clues| {
          assert cs[i] == P.clues[i];
        }
      }
    }
    if CheckAll(cs, a) == Ok(true) {
      assert cs[|P.clues|] == k;
      forall i | 0 <= i < |P.clues| ensures Eval(P.clues[i], a) == Ok(true) {
        assert cs[i] == P.clues[i];
      }
    }
  }

  /** When the domain admits the whole list of distinct values, every value is tried, in list order. */
  lemma {:induction false} CandidatesInOrder(vals: seq<Value>, dom: set<Value>)
    requires forall i, j :: 0 <= i < j < |vals| ==> vals[i] != vals[j]
    requires forall v :: v in vals ==> v in dom
    ensures Candidates(vals, dom) == vals
  {
    if vals != [] {
      CandidatesInOrder(vals[1..], dom - {vals[0]});
    }
  }

  /** With at least one position, an assignment inside the grid with no open pair is complete. */
  lemma ClosedComplete(P: Puzzle, a: Assignment)
    requires P.n > 0
    requires forall c :: c in a ==> forall p :: p in a[c] ==> p < P.n
    requires forall c: nat, p: nat :: !Open(P, a, c, p)
    ensures IsComplete(P, a)
  {
    forall c | 0 <= c < |P.cats| ensures c in a && |a[c]| == P.n {
      assert !Open(P, a, c, 0);
      assert a[c].Keys == Range(P.n) by {
        forall p: nat ensures p in a[c] <==> p < P.n {
          assert !Open(P, a, c, p);
        }
      }
      RangeCard(P.n);
    }
  }

  /**
   For an assignment inside the grid, the completeness test holds exactly
   when every category has a row and no pair is open.
   */
  lemma CompleteIffClosed(P: Puzzle, a: Assignment)
    requires forall c :: c in a ==> forall p :: p in a[c] ==> p < P.n
    ensures IsComplete(P, a) <==>
              (forall c: nat :: c < |P.cats| ==> c in a) && forall c: nat, p: nat :: !Open(P, a, c, p)
  {
    RangeCard(P.n);
    if IsComplete(P, a) {
      forall c: nat, p: nat | c < |P.cats| && p < P.n ensures Assigned(a, c, p) {
        SubsetCardEq(a[c].Keys, Range(P.n));
      }
    }
    if (forall c: nat :: c < |P.cats| ==> c in a) && (forall c: nat, p: nat :: !Open(P, a, c, p)) {
      forall c | 0 <= c < |P.cats| ensures c in a && |a[c]| == P.n {
        assert a[c].Keys == Range(P.n) by {
          forall p: nat ensures p in a[c] <==> p < P.n {
            assert !Open(P, a, c, p);
          }
        }
      }
    }
  }

  /** Solve gets stuck with pairs left to fill only when there are no positions at all. */
  lemma StuckOnlyWithoutPositions(P: Puzzle)
    requires Solve(P) == Failed(NoVariableLeft)
    ensures P.n == 0
  {
    var d := Propagate(P.cats, Initial(P.cats, P.n)).value;
    StartInv(P, d);
    BacktrackSound(P, map[], d);
  }

  /**
   With no positions, every pair is filled from the start although no
   category has a row yet: the search stops with the choice missing.
   */
  lemma NoPositionsFails(P: Puzzle)
    requires WellFormed(P) && P.n == 0 && |P.cats| > 0
    ensures Solve(P) == Failed(NoVariableLeft)
  {
    var d := Initial(P.cats, 0);
    assert Settled(P.cats, d) by {
      forall c | 0 <= c < |d| ensures RowSettled(P.cats[c], d[c]) {
        assert |P.cats[c]| == 0;
      }
    }
    PropagateSettled(P.cats, d);
    var empty: Assignment := map[];
    assert 0 !in empty;
  }

  // ---------------------------------------------------------------------------
  // Reading a solution
  // ---------------------------------------------------------------------------

  /**
   On a solution, the query for a value of category c finds the unique
   position holding it and reports every category's value there; a value
   outside the list gives None.
   */
  lemma QueryOnSolution(P: Puzzle, s: Assignment, c: nat, v: Value)
    requires IsSolution(P, s) && WellFormed(P) && c < |P.cats|
    ensures v !in P.cats[c] ==> Query(Some(s), c, v) == Ok(None)
    ensures v in P.cats[c] ==>
              exists p: nat :: p < P.n && Placed(s, c, v, p) && (forall c' :: c' in s ==> p in s[c'])
                          && Query(Some(s), c, v) == Ok(Some(Column(s, p)))
  {
    assert c in s;
    if v in P.cats[c] {
      var p := ValuePosition(P, s, c, v);
      QueryAt(s, c, v, p);
    } else {
      assert !Found(s, c, v);
    }
  }

  /** The query reads the position where v first sits when every row fills it. */
  lemma QueryAt(s: Assignment, c: nat, v: Value, p: nat)
    requires FirstPlaced(s, c, v, p)
    requires forall c' :: c' in s ==> p in s[c']
    ensures Query(Some(s), c, v) == Ok(Some(Column(s, p)))
  {
    assert Found(s, c, v);
    var r := Lookup(s, c, v);
    assert Placed(s, c, v, r.value) && Placed(s, c, v, p);
    assert r == Some(p);
  }

  /** In a solution every value of a list sits at exactly one position, which every row fills. */
  lemma ValuePosition(P: Puzzle, s: Assignment, c: nat, v: Value) returns (p: nat)
    requires IsSolution(P, s) && WellFormed(P) && c < |P.cats| && v in P.cats[c]
    ensures p < P.n && FirstPlaced(s, c, v, p)
    ensures forall c' :: c' in s ==> p in s[c']
  {
    assert c in s;
    RowCoversValues(s[c], P.cats[c]);
    p :| p in s[c] && s[c][p] == v;
    InjectiveFirstPlaced(s, c, v, p);
    assert p in Range(P.n);
    forall c' | c' in s ensures p in s[c'] {
      assert p in Range(P.n);
    }
  }
}
